=== FILE: README.md ===
# Torus picross, modelled in Dafny

Torus picross is a nonogram played in a terminal on a board whose opposite
edges are glued together. Every row and every column of the board is a ring.
Each row and column therefore carries a *hint*: the lengths of its runs of
filled cells, read around the ring and shown from a randomly chosen run
onwards. The player moves a cursor that wraps around the edges, and marks
cells as filled (`Yes`) or empty (`No`). The puzzle is solved when the marks
agree with the answer board.

This project models the following parts of that program:

- `marks.dfy`, module `Marks`: the cell marks and points of the game engine
  (`src/game/problem.rs`).
- `runs.dfy` and `hints.dfy`, modules `Runs` and `Hints`: the hint rule. The
  first holds the left-to-right scan the engine performs on a line, with the
  list of runs it gives (`LinearRuns`), and sums and rotations. The second
  holds the engine's circular hint (`CircularHint`). It proves that this hint
  is a rotation of the runs of the line read from any empty cell onwards,
  that is, of the runs on the ring.
- `problem.dfy`, module `Engine`: the puzzle engine `Problem`, as a class
  whose working board and hints the methods update. The random rotation of
  every hint is a parameter.
- `controller.dfy`, module `Controller`: the cursor controller
  `ProblemController`, as a class. It covers point normalisation onto the
  torus with Rust's truncating `%`, the four directions, and the mark
  toggle.
- `puzzle_file.dfy`, module `PuzzleFile`: the reader of the puzzle file in
  `src/main.rs`. It is an imperative method, proved equal to a functional
  definition. That definition is proved to accept exactly the well-formed
  files and to read back every board written in the file format.
- `legacy.dfy`, module `Legacy`: the older engine `src/problem.rs`. The binary
  does not build it. It adds the run left open at the end of a line into the
  first hint, whatever the first cell of the line is, and it does not rotate.
  Its finding is given below.

`outcomes.dfy` holds the `Option` and `Result` types that model panics and
error returns.

## Model

| member | source | states |
|---|---|---|
| Marks.ToState | src/game/problem.rs:17-21 | a mark becomes the marked state holding that mark |
| Marks.ToMark | src/game/problem.rs:23-30 | a state reads as `Yes` exactly when it is `Marked(Yes)`; unmarked and `Marked(No)` read as `No` |
| Marks.ToMarkToState | src/game/problem.rs:17-30 | marking a cell with `m` and reading it back gives `m` |
| Marks.Add | src/game/problem.rs:57-65 | adding `q` and then subtracting it gives the point back |
| Marks.SubThenAdd | src/game/problem.rs:57-82 | subtracting `q` and then adding it gives the point back |
| Runs.Step | src/game/problem.rs:182-189 | after reading a cell, a run is open exactly when the cell is `Yes` |
| Runs.ScanFrom | src/game/problem.rs:181-190 | after reading a non-empty line, a run is open exactly when its last cell is `Yes` |
| Runs.ScanCount | src/game/problem.rs:181-190 | each cell read adds at most one run to those the scan has found |
| Runs.LinearRuns | src/game/problem.rs:179-190 | a line has at most as many runs as cells |
| Runs.LinearRunsSum | src/game/problem.rs:179-190 | the runs the scan of a line records add up to its number of `Yes` cells |
| Runs.LinearRunsEmpty | src/game/problem.rs:179-190 | the scan records no run exactly when the line has no `Yes` cell |
| Runs.LinearRunsPositive | src/game/problem.rs:185-189 | every recorded run is at least one cell long, because a run is recorded only when `len != 0` |
| Runs.LinearRunsAppend | src/game/problem.rs:179-190 | when two lines meet at a `No` cell, the runs of their concatenation are the runs of the first followed by those of the second |
| Runs.LinearRunsAllYes | src/game/problem.rs:179-191 | a non-empty line of `Yes` cells has a single run as long as the line |
| Runs.ScanAppend | src/game/problem.rs:181-190 | scanning two pieces in turn is scanning their concatenation |
| Runs.RotateLeft | src/game/problem.rs:199 | `rotate_left` keeps the hint's length |
| Runs.RotateLeftAt | src/game/problem.rs:199 | entry `i` of the rotated hint is entry `i + k` of the hint, counted around from the front past the end |
| Runs.RotateLeftPermutes | src/game/problem.rs:198-199 | `rotate_left` keeps the multiset of the hint's entries |
| Runs.RotateLeftSum | src/game/problem.rs:198-199 | `rotate_left` keeps the hint's sum |
| Runs.RotateLeftPositive | src/game/problem.rs:198-199 | `rotate_left` keeps every entry of a hint at least one |
| Runs.RotateLeftTwice | src/game/problem.rs:198-199 | a rotation of a rotation of a list is a rotation of it |
| Hints.CircularHint | src/game/problem.rs:179-197 | a line's hint before rotation is never empty, so a rotation amount can always be drawn from `0..len` |
| Hints.CircularHintSum | src/game/problem.rs:179-197 | a line's hint adds up to its number of `Yes` cells |
| Hints.CircularHintShape | src/game/problem.rs:185-196 | the hint is `[0]` exactly for a line without `Yes` cells; otherwise it has no zero entry |
| Hints.CircularHintMerges | src/game/problem.rs:193-194 | a line that starts and ends with `Yes` and has a `No` has its first and last runs merged into one, so it has one entry fewer than it has runs |
| Hints.CircularHintKeepsRuns | src/game/problem.rs:191-197 | any other line with a `Yes` cell has its runs as its hint, unchanged |
| Hints.CircularHintIsCircularRuns | src/game/problem.rs:178-197 | for every `No` cell `j`, the hint is a rotation of the runs of the line read as a ring starting at `j` |
| Hints.FinishScan | src/game/problem.rs:191-197 | the three branches after the scan (`hint.is_empty()`, `begin_yes`, `len != 0`) give exactly the circular hint |
| Hints.LineHint | src/game/problem.rs:178-199 | the scan loop, the closing branches and the rotation give the circular hint rotated left by the drawn amount |
| Engine.ShapeOk | src/game/problem.rs:101-109 | the boards `Problem::from` accepts without panicking are exactly those that are grids of some size with at least one row and one column |
| Engine.Wrong | src/game/problem.rs:157 | within both boards, a cell is wrong exactly when the answer is `Yes` and the cell is not marked `Yes`, or the answer is `No` and the cell is marked `Yes`; a wrong cell lies on the answer board |
| Engine.Blank | src/game/problem.rs:112 | the initial working board has the answer's size and every cell is `NotMarked` |
| Engine.Column | src/game/problem.rs:203-216 | a column has one cell per row, taken from that row |
| Engine.HintSum | src/game/problem.rs:178-199 | every stored hint has the multiset of entries of its line's hint and adds up to the line's `Yes` count |
| Engine.HintShape | src/game/problem.rs:178-199 | a stored hint is non-empty, is `[0]` exactly for a line without `Yes`, and otherwise has only positive entries |
| Engine.HintMerges | src/game/problem.rs:193-199 | the stored hint of a line that starts and ends with `Yes` and has a `No` has one entry fewer than the line has runs |
| Engine.HintIsCircular | src/game/problem.rs:178-199 | every stored hint is a rotation of the runs of its line read as a ring from any `No` cell |
| Engine.LineHints | src/game/problem.rs:175-200 | one hint per line, each the line's circular hint rotated by that line's amount |
| Engine.WrongPointsOf | src/game/problem.rs:152-164 | the points listed are exactly the cells whose mark differs from the answer, each once, in row-major order |
| Engine.Problem.constructor | src/game/problem.rs:99-124 | the size comes from the row count and the first row's length, the working board starts unmarked, and each hint is its line's circular hint rotated by the drawn amount |
| Engine.Problem.Build | src/game/problem.rs:99-109 | construction fails exactly for a board with no rows, with rows of different lengths, or with empty rows (the hint loop reads column 0) |
| Engine.Problem.SetHint | src/game/problem.rs:173-227 | afterwards every row and column hint is its line's circular hint rotated by the drawn amount |
| Engine.Problem.BoardSize | src/game/problem.rs:128-130 | the size is at least one by one and is that of both boards |
| Engine.Problem.GetRowHints | src/game/problem.rs:144-146 | one hint per row, each a rotation of its row's circular hint |
| Engine.Problem.GetColumnHints | src/game/problem.rs:148-150 | one hint per column, each a rotation of its column's circular hint |
| Engine.Problem.SetWorkingBoard | src/game/problem.rs:140-142 | the cell at the point takes the new state and no other cell changes |
| Engine.Problem.WrongPoints | src/game/problem.rs:152-164 | exactly the wrong cells, each once, in row-major order |
| Engine.Problem.IsCorrectAnswer | src/game/problem.rs:166-168 | true exactly when every working cell, read as a mark, equals the answer cell |
| Controller.RustRem | src/game/tui_controller.rs:8 | Rust's `%`: the remainder differs from the dividend by a multiple of the divisor, has the sign of the dividend, and is smaller than the divisor in magnitude |
| Controller.NormalizeAxisIsMod | src/game/tui_controller.rs:8-15 | the truncated remainder, moved up by the axis length when negative, is the Euclidean remainder |
| Controller.NormalizeAxis | src/game/tui_controller.rs:8-15 | the remainder, plus the axis length when negative, lies on the axis and is the Euclidean remainder |
| Controller.Normalize | src/game/tui_controller.rs:7-17 | a normalised point lies on the board, and each coordinate is the Euclidean remainder by the board size |
| Controller.NormalizeIdempotent | src/game/tui_controller.rs:7-17 | normalising twice is normalising once |
| Controller.NormalizeFixes | src/game/tui_controller.rs:7-17 | normalisation leaves a point unchanged exactly when it is on the board |
| Controller.NormalizeSameCell | src/game/tui_controller.rs:7-17 | two points normalise to the same cell exactly when they differ by whole board heights and widths |
| Controller.NormalizeAdd | src/game/tui_controller.rs:7-17 | moving the normalised cursor reaches the same cell as moving the raw one |
| Controller.Delta | src/game/tui_controller.rs:27-37 | each direction maps to its own unit step, and no two directions share a step |
| Controller.DeltaOpposite | src/game/tui_controller.rs:27-37 | the steps of opposite directions cancel |
| Controller.Moves | src/game/tui_controller.rs:113-115 | repeated moves up or down keep the column, and repeated moves left or right keep the row |
| Controller.MovesOffset | src/game/tui_controller.rs:113-115 | `k` moves in one direction shift the cursor by `k` unit steps |
| Controller.MovesLap | src/game/tui_controller.rs:7-17 | `k` moves in one direction bring the cursor back to its cell exactly when `k` is a multiple of the length of that axis; so, for example, four moves return to the start only on an axis of length 1, 2 or 4 |
| Controller.WrapNorth | src/game/tui_controller.rs:98-100 | moving up from the top row shows the cursor on the bottom row of the same column |
| Controller.WrapEast | src/game/tui_controller.rs:98-100 | moving right from the last column shows the cursor in the first column of the same row |
| Controller.Toggle | src/game/tui_controller.rs:121-124 | marking with the mark the cell already holds clears it; otherwise the cell takes that mark |
| Controller.ToggleTwice | src/game/tui_controller.rs:119-125 | marking twice with the same mark returns the cell to its state if it held that mark, and clears it otherwise |
| Controller.ToggleThenOther | src/game/tui_controller.rs:119-125 | after marking with one mark, marking with the other leaves the other mark |
| Controller.ProblemController.constructor | src/game/tui_controller.rs:44-54 | the controller takes over the puzzle, and the cursor starts at the drawn cell on the board |
| Controller.ProblemController.KeyMove | src/game/tui_controller.rs:113-115 | the raw cursor moves by the direction's step, and the puzzle is untouched |
| Controller.ProblemController.KeyMoveUp | src/game/tui_controller.rs:58-60 | the cursor moves one row up |
| Controller.ProblemController.KeyMoveRight | src/game/tui_controller.rs:62-64 | the cursor moves one column right |
| Controller.ProblemController.KeyMoveDown | src/game/tui_controller.rs:66-68 | the cursor moves one row down |
| Controller.ProblemController.KeyMoveLeft | src/game/tui_controller.rs:70-72 | the cursor moves one column left |
| Controller.ProblemController.Cursor | src/game/tui_controller.rs:98-100 | the reported cursor lies on the board and is the raw cursor reduced modulo the board size |
| Controller.ProblemController.PointNormalize | src/game/tui_controller.rs:128-130 | the stored cursor is replaced by its normalisation |
| Controller.ProblemController.KeyMark | src/game/tui_controller.rs:117-126 | the cursor is normalised, the cell under it is toggled with the mark, and no other cell changes |
| Controller.ProblemController.KeyMarkYes | src/game/tui_controller.rs:74-76 | the cell under the normalised cursor is toggled with `Yes` |
| Controller.ProblemController.KeyMarkNo | src/game/tui_controller.rs:78-80 | the cell under the normalised cursor is toggled with `No` |
| Controller.ProblemController.BoardSize | src/game/tui_controller.rs:82-84 | the puzzle's size, at least one by one |
| Controller.ProblemController.WrongPoints | src/game/tui_controller.rs:102-104 | exactly the puzzle's wrong cells, each once, in row-major order |
| Controller.ProblemController.IsCorrectAnswer | src/game/tui_controller.rs:106-108 | true exactly when the working board, read as marks, is the answer |
| PuzzleFile.Word | src/main.rs:47 | a word is the longest prefix without whitespace |
| PuzzleFile.Tokens | src/main.rs:47 | the tokens of `split_whitespace`, laid end to end, are the line with its whitespace removed, so no other character is lost |
| PuzzleFile.TokensAreWords | src/main.rs:47 | `split_whitespace` gives non-empty tokens without whitespace |
| PuzzleFile.TokensOfJoin | src/main.rs:47 | splitting words joined by spaces gives the words back |
| PuzzleFile.TokensOfInterleave | src/main.rs:47-56 | a line made of words separated by non-empty runs of whitespace (tabs, repeated spaces), with any whitespace before and after, splits into exactly those words; with `Tokens` and `TokensAreWords` this fixes the tokens, and so their count, of every line |
| PuzzleFile.ParseUsize | src/main.rs:51-52 | a size read from a token never exceeds the largest `usize` |
| PuzzleFile.ShowNat | src/main.rs:51-52 | the decimal text of `n` is non-empty, all digits, and denotes `n` |
| PuzzleFile.ParseShowNat | src/main.rs:51-52 | every `usize` written in decimal is read back as itself |
| PuzzleFile.MarkOfToken | src/main.rs:60-65 | a cell is `No` exactly for the token `0`; any other token is `Yes` |
| PuzzleFile.RowOf | src/main.rs:55-65 | a grid line gives one cell per token, `No` exactly where the token is `0` |
| PuzzleFile.Header | src/main.rs:47-52 | a header is accepted exactly when it has two tokens that both parse as `usize` values, and it then gives those values as rows and columns, in that order; the error is a format error exactly when the token count is not two, and a number error otherwise |
| PuzzleFile.Parse | src/main.rs:40-72 | a header error is returned as is; an accepted file starts with a header that gives a size, and its grid has that size |
| PuzzleFile.ParseGrid | src/main.rs:53-72 | the grid lines are accepted exactly when there are as many as the header's row count and each holds the header's column count of tokens; the result then has the header's size, and every error is a format error |
| PuzzleFile.GridOf | src/main.rs:53-69 | the grid has one row per grid line, each with the header's column count |
| PuzzleFile.ParsePuzzle | src/main.rs:40-72 | the reading loop, with its early returns, gives the result of `Parse` |
| PuzzleFile.ReadGrid | src/main.rs:53-72 | the grid loop gives the result of `ParseGrid` |
| PuzzleFile.ParseEmpty | src/main.rs:43-46 | a file without a first line is a format error |
| PuzzleFile.ParseBadHeader | src/main.rs:47-52 | a header without exactly two tokens is a format error; two tokens of which one is not a size is a number error |
| PuzzleFile.ParseAccepts | src/main.rs:40-72 | a file is accepted exactly when its header gives a size, exactly that many grid lines follow, and each holds the header's column count of tokens |
| PuzzleFile.ParseContents | src/main.rs:53-69 | an accepted file gives a grid of the header's size whose rows are the grid lines read cell by cell |
| PuzzleFile.HeaderOfRender | src/main.rs:47-52 | a written header is read back as the board's size |
| PuzzleFile.TokensOfRenderedRow | src/main.rs:55-65 | a written grid line splits into one token per cell |
| PuzzleFile.ParseRender | src/main.rs:40-72 | reading a board written in the file format gives the board back |
| Legacy.LegacyHint | src/problem.rs:159-176 | an older hint is never empty |
| Legacy.LegacyHintSum | src/problem.rs:159-176 | an older hint still adds up to the line's `Yes` count |
| Legacy.LegacyHintShape | src/problem.rs:166-175 | an older hint is `[0]` exactly for a line without `Yes`, and otherwise has no zero entry |
| Legacy.LegacyHintVsCircular | src/problem.rs:172-175 | the older hint equals the circular one except exactly on lines that start with `No`, end with `Yes` and have at least two runs |
| Legacy.LegacyMergeCounterexample | src/problem.rs:172-175 | the line `No Yes No Yes` gets the older hint `[2]`, but its circular hint and the runs of its ring are `[1, 1]` |
| Legacy.LegacyShapeOk | src/problem.rs:96-104 | the boards the older `Problem::from` accepts without panicking are exactly those that are grids of some size with at least one row |
| Legacy.LegacyLineHint | src/problem.rs:160-175 | the older scan loop and its closing steps give `LegacyHint` |
| Legacy.LegacyLineHints | src/problem.rs:158-176 | one older hint per line |
| Legacy.LegacyProblem.constructor | src/problem.rs:95-118 | the size comes from the row count and the first row's length, the working board starts unmarked, and every hint is the older hint |
| Legacy.LegacyProblem.Build | src/problem.rs:95-104 | construction fails exactly for a board with no rows or with rows of different lengths; empty rows are accepted |
| Legacy.LegacyProblem.SetHint | src/problem.rs:157-197 | afterwards every row and column hint is its line's older hint |
| Legacy.LegacyProblem.BoardSize | src/problem.rs:120-122 | the size has at least one row and is that of both boards |
| Legacy.LegacyProblem.SetWorkingBoard | src/problem.rs:132-134 | the cell at the point takes the new state and no other cell changes |
| Legacy.LegacyProblem.WrongPoints | src/problem.rs:136-148 | exactly the wrong cells, each once, in row-major order |
| Legacy.LegacyProblem.IsCorrectAnswer | src/problem.rs:150-152 | true exactly when every working cell, read as a mark, equals the answer cell |

## Left out

- The terminal user interface (`src/main.rs:74-276`): raw mode, drawing the board and hints, and reading keys. It does input and output only.
- Opening the file named on the command line, and decoding it into lines. The file is given to `PuzzleFile.ParsePuzzle` as a list of lines. A line that fails to decode makes `l.unwrap()` panic; that panic is not modelled.
- The random draws (`rand::thread_rng`): each hint's rotation amount and the cursor's starting cell are parameters.
- The 64-bit `isize` of the cursor is modelled as an unbounded integer. Overflow after about 2^63 moves in one direction is not modelled.
- `src/main.rs:53` allocates the `rows × cols` board before it reads the grid lines. The model does not capture that an absurd header aborts on allocation before the line count is checked.
- `usize` is taken as 64 bits wide (`PuzzleFile.MaxUsize`).
- Accessors that only return a field have no contract: `Engine.Problem.GetAnswerBoard`, `Engine.Problem.GetWorkingBoard`, `Legacy.LegacyProblem.GetAnswerBoard`, `Legacy.LegacyProblem.GetWorkingBoard`, and the controller's read-throughs `GetWorkingBoard`, `GetRowHints` and `GetColumnHints`.
- The `Index` and `IndexMut` impls, which index a board by a point, are modelled as plain sequence indexing. The `AddAssign` and `SubAssign` impls are modelled by `Marks.Add` and `Marks.Sub`.
- The older engine's points use unsigned coordinates. Its `Sub` panics on underflow when overflow checks are on (the debug profile) and wraps around otherwise. Its boards are indexed only at points on the board, so it reuses the game's integer `Point` and its `Sub` is not modelled separately. Its `State` and `PointState` are modelled as the game's `Mark` and `State`.
- The older engine's `From<PointState> for State` (`src/problem.rs:30-37`) is the same conversion as `Marks.ToMark`.
- Indexing a board at a point off the board panics in `get_answer_board`, `get_working_board` and `set_working_board` (an index out of range). The model does not represent that panic: these members require the point to lie on the board (`InBoard`). The controller's `key_mark` passes the normalised cursor, which always does (`Controller.Normalize`); the other calls come from the terminal interface, which is not modelled.

## Findings

| source | as written | input that shows it | evidently intended | confidence | as-written member | corrected member |
|---|---|---|---|---|---|---|
| src/problem.rs:172-175 | the run still open at the end of a line is always added into the first hint entry | the line `No Yes No Yes` gets the hint `[2]`, but on the ring its runs are `[1, 1]`, separated by the `No` at the start | merge the last run into the first only when the line starts with `Yes`, as src/game/problem.rs:193-196 does | high, not executed | Legacy.LegacyMergeCounterexample | Hints.CircularHintIsCircularRuns |

=== FILE: controller.dfy ===
/**
 * The cursor controller of the game (src/game/tui_controller.rs): a cursor
 * that moves freely over the integers and is folded onto the torus only when
 * it is read or used, and the toggling of working cells under it.
 */
module Controller {
  import opened Marks
  import opened Engine

  lemma MulAtLeast(a: int, n: int)
    requires a >= 1 && n > 0
    ensures a * n >= n
  {
  }

  /** A quotient and a remainder in `[0, n)` that rebuild `x` are Dafny's own. */
  lemma DivModUnique(x: int, n: int, q: int, r: int)
    requires n > 0 && 0 <= r < n && x == q * n + r
    ensures x / n == q && x % n == r
  {
    var q', r' := x / n, x % n;
    assert (q - q') * n == r' - r;
    if q > q' {
      MulAtLeast(q - q', n);
    } else if q < q' {
      MulAtLeast(q' - q, n);
    }
  }

  /** Taking the residue of a residue changes nothing. */
  lemma ModOfMod(x: int, n: int)
    requires n > 0
    ensures (x % n) % n == x % n
  {
    DivModUnique(x % n, n, 0, x % n);
  }

  /** Two integers have the same residue exactly when their difference is a multiple of `n`. */
  lemma ModSame(x: int, y: int, n: int)
    requires n > 0
    ensures x % n == y % n <==> (x - y) % n == 0
  {
    var qx, qy := x / n, y / n;
    var rx, ry := x % n, y % n;
    assert x - y == (qx - qy) * n + (rx - ry);
    if rx == ry {
      DivModUnique(x - y, n, qx - qy, 0);
    }
    if (x - y) % n == 0 {
      var k := (x - y) / n;
      assert x == (qy + k) * n + ry;
      DivModUnique(x, n, qy + k, ry);
    }
  }

  /**
   * `%` on `isize`: the remainder of a division truncated toward zero, which
   * differs from the dividend by a multiple of the divisor, has the sign of
   * the dividend and is smaller than the divisor in magnitude.
   */
  function RustRem(a: int, n: int): (r: int)
    requires n > 0
    ensures a >= 0 ==> 0 <= r < n
    ensures a < 0 ==> -n < r <= 0
    ensures (a - r) % n == 0
  {
    if a >= 0 then
      DivModUnique(a - a % n, n, a / n, 0);
      a % n
    else
      DivModUnique(a + (-a) % n, n, -((-a) / n), 0);
      -((-a) % n)
  }

  /**
   * One coordinate of `Point::normalize`: the truncated remainder, moved up by
   * `n` when negative. The result is the coordinate's residue modulo `n`.
   */
  function NormalizeAxis(x: int, n: int): (v: int)
    requires n > 0
    ensures 0 <= v < n && v == x % n
  {
    var r := RustRem(x, n);
    NormalizeAxisIsMod(x, n);
    if r < 0 then r + n else r
  }

  lemma NormalizeAxisIsMod(x: int, n: int)
    requires n > 0
    ensures var r := RustRem(x, n); (if r < 0 then r + n else r) == x % n
  {
    if x < 0 {
      var q, m := (-x) / n, (-x) % n;
      if m == 0 {
        DivModUnique(x, n, -q, 0);
      } else {
        assert x == (-q - 1) * n + (n - m);
        DivModUnique(x, n, -q - 1, n - m);
      }
    }
  }

  /**
   * `Point::normalize`: folds a point onto a board of the given size. The
   * result lies on the board and agrees with the point modulo the board's
   * height and width.
   */
  function Normalize(p: Point, size: Size): (q: Point)
    requires size.row >= 1 && size.column >= 1
    ensures InBoard(q, size)
    ensures q.row == p.row % size.row && q.column == p.column % size.column
  {
    Point(NormalizeAxis(p.row, size.row), NormalizeAxis(p.column, size.column))
  }

  /** Normalizing twice is normalizing once. */
  lemma NormalizeIdempotent(p: Point, size: Size)
    requires size.row >= 1 && size.column >= 1
    ensures Normalize(Normalize(p, size), size) == Normalize(p, size)
  {
    ModOfMod(p.row, size.row);
    ModOfMod(p.column, size.column);
  }

  /** Normalizing leaves a point alone exactly when it already lies on the board. */
  lemma NormalizeFixes(p: Point, size: Size)
    requires size.row >= 1 && size.column >= 1
    ensures Normalize(p, size) == p <==> InBoard(p, size)
  {
    if InBoard(p, size) {
      DivModUnique(p.row, size.row, 0, p.row);
      DivModUnique(p.column, size.column, 0, p.column);
    }
  }

  /**
   * Two points name the same cell of the torus exactly when they differ by a
   * whole number of board heights and widths.
   */
  lemma NormalizeSameCell(p: Point, q: Point, size: Size)
    requires size.row >= 1 && size.column >= 1
    ensures Normalize(p, size) == Normalize(q, size) <==>
      (p.row - q.row) % size.row == 0 && (p.column - q.column) % size.column == 0
  {
    ModSame(p.row, q.row, size.row);
    ModSame(p.column, q.column, size.column);
  }

  /**
   * Moving from the normalized cursor or from the raw one reaches the same
   * cell: when the cursor is folded onto the board does not matter.
   */
  lemma NormalizeAdd(p: Point, d: Point, size: Size)
    requires size.row >= 1 && size.column >= 1
    ensures Normalize(Add(Normalize(p, size), d), size) == Normalize(Add(p, d), size)
  {
    var n := Normalize(p, size);
    ModSame(n.row, p.row, size.row);
    ModOfMod(p.row, size.row);
    ModSame(n.row + d.row, p.row + d.row, size.row);
    ModSame(n.column, p.column, size.column);
    ModOfMod(p.column, size.column);
    ModSame(n.column + d.column, p.column + d.column, size.column);
  }

  /** The four arrow-key directions. */
  datatype Direction = N | E | S | W

  /** `From<Direction> for Point`: one step; north is toward row 0, east toward higher columns. */
  function Delta(d: Direction): (p: Point)
    ensures d == N <==> p == Point(-1, 0)
    ensures d == E <==> p == Point(0, 1)
    ensures d == S <==> p == Point(1, 0)
    ensures d == W <==> p == Point(0, -1)
  {
    match d
    case N => Point(-1, 0)
    case E => Point(0, 1)
    case S => Point(1, 0)
    case W => Point(0, -1)
  }

  /** A step and the step in the opposite direction cancel. */
  lemma DeltaOpposite(d: Direction)
    ensures Add(Delta(d), Delta(match d case N => S case S => N case E => W case W => E)) == Point(0, 0)
  {
  }

  /**
   * The cursor after `k` steps in direction `d`, before any folding. Moving up
   * or down keeps the column, and moving left or right keeps the row.
   */
  function Moves(p: Point, d: Direction, k: nat): (q: Point)
    ensures d == N || d == S ==> q.column == p.column
    ensures d == E || d == W ==> q.row == p.row
  {
    if k == 0 then p else Add(Moves(p, d, k - 1), Delta(d))
  }

  /** `k` steps move the cursor by `k` times the step. */
  lemma {:induction false} MovesOffset(p: Point, d: Direction, k: nat)
    ensures Moves(p, d, k) == Point(p.row + k * Delta(d).row, p.column + k * Delta(d).column)
  {
    if k > 0 {
      MovesOffset(p, d, k - 1);
    }
  }

  /**
   * The board is a torus: as many steps as the board is long in the direction
   * of travel bring the cursor back to the same cell, and no smaller positive
   * number does.
   */
  lemma {:induction false} MovesLap(p: Point, d: Direction, size: Size, k: nat)
    requires size.row >= 1 && size.column >= 1
    ensures var len := if d == N || d == S then size.row else size.column;
      Normalize(Moves(p, d, k), size) == Normalize(p, size) <==> k % len == 0
  {
    var q := Moves(p, d, k);
    MovesOffset(p, d, k);
    NormalizeSameCell(q, p, size);
    ModSame(0, k, size.row);
    ModSame(0, k, size.column);
    DivModUnique(0, size.row, 0, 0);
    DivModUnique(0, size.column, 0, 0);
    match d
    case N =>
      assert q == Point(p.row - k, p.column);
    case S =>
      assert q == Point(p.row + k, p.column);
    case E =>
      assert q == Point(p.row, p.column + k);
    case W =>
      assert q == Point(p.row, p.column - k);
  }

  /** Moving north from the top row shows the cursor on the bottom row, same column. */
  lemma WrapNorth(p: Point, size: Size)
    requires InBoard(p, size) && p.row == 0
    ensures Normalize(Add(p, Delta(N)), size) == Point(size.row - 1, p.column)
  {
    DivModUnique(-1, size.row, -1, size.row - 1);
    DivModUnique(p.column, size.column, 0, p.column);
  }

  /** Moving east from the last column shows the cursor on the first column, same row. */
  lemma WrapEast(p: Point, size: Size)
    requires InBoard(p, size) && p.column == size.column - 1
    ensures Normalize(Add(p, Delta(E)), size) == Point(p.row, 0)
  {
    DivModUnique(size.column, size.column, 1, 0);
    DivModUnique(p.row, size.row, 0, p.row);
  }

  /**
   * The new state of a working cell when the player marks it with `m`: a cell
   * already marked `m` is cleared, any other cell is marked `m`.
   */
  function Toggle(s: State, m: Mark): (t: State)
    ensures t == NotMarked <==> s == Marked(m)
    ensures t != NotMarked ==> t == Marked(m)
  {
    match s
    case Marked(x) => if x == m then NotMarked else Marked(m)
    case NotMarked => Marked(m)
  }

  /**
   * Marking twice with the same mark restores a cell that was unmarked or
   * already marked that way, and clears one marked the other way.
   */
  lemma ToggleTwice(s: State, m: Mark)
    ensures Toggle(Toggle(s, m), m) == (if s == Marked(m) then s else NotMarked)
  {
  }

  /** Marking with one mark and then with the other leaves the other mark. */
  lemma ToggleThenOther(s: State, m: Mark, other: Mark)
    requires m != other
    ensures Toggle(Toggle(s, m), other) == Marked(other)
  {
  }

  /** The game's controller: the puzzle it owns and the cursor. */
  class ProblemController {
    const problem: Problem
    var point: Point

    ghost predicate Valid()
      reads this, problem
    {
      problem.Valid()
    }

    /**
     * `ProblemController::from`: takes over the puzzle and starts the cursor at
     * `start`, the cell the random draw picks, which lies on the board.
     */
    constructor(problem: Problem, start: Point)
      requires problem.Valid() && InBoard(start, problem.size)
      ensures Valid() && this.problem == problem && point == start
      ensures InBoard(point, problem.size)
    {
      this.problem := problem;
      point := start;
    }

    /** `key_move`: steps the raw cursor; nothing is folded and the puzzle is untouched. */
    method KeyMove(d: Direction)
      requires Valid()
      modifies this`point
      ensures Valid()
      ensures point == Add(old(point), Delta(d))
    {
      point := Add(point, Delta(d));
    }

    /** `key_move_up`: one row toward row 0. */
    method KeyMoveUp()
      requires Valid()
      modifies this`point
      ensures Valid() && point == Point(old(point).row - 1, old(point).column)
    {
      KeyMove(N);
    }

    /** `key_move_right`: one column to the right. */
    method KeyMoveRight()
      requires Valid()
      modifies this`point
      ensures Valid() && point == Point(old(point).row, old(point).column + 1)
    {
      KeyMove(E);
    }

    /** `key_move_down`: one row down. */
    method KeyMoveDown()
      requires Valid()
      modifies this`point
      ensures Valid() && point == Point(old(point).row + 1, old(point).column)
    {
      KeyMove(S);
    }

    /** `key_move_left`: one column to the left. */
    method KeyMoveLeft()
      requires Valid()
      modifies this`point
      ensures Valid() && point == Point(old(point).row, old(point).column - 1)
    {
      KeyMove(W);
    }

    /** `point`: the cell under the cursor, on the board; the stored cursor is not changed. */
    function Cursor(): (c: Point)
      reads this, problem
      requires Valid()
      ensures InBoard(c, problem.size)
      ensures c.row == point.row % problem.size.row && c.column == point.column % problem.size.column
    {
      Normalize(point, problem.BoardSize())
    }

    /** `point_normalize`: folds the stored cursor onto the board. */
    method PointNormalize()
      requires Valid()
      modifies this`point
      ensures Valid()
      ensures point == Normalize(old(point), problem.size)
    {
      point := Normalize(point, problem.BoardSize());
    }

    /**
     * `key_mark`: folds the cursor onto the board, then toggles the working
     * cell under it with `m`. No other cell, hint or the answer changes.
     */
    method KeyMark(m: Mark)
      requires Valid()
      modifies this`point, problem`working
      ensures Valid()
      ensures point == Normalize(old(point), problem.size)
      ensures problem.working == old(problem.working)[point.row :=
        old(problem.working)[point.row][point.column := Toggle(old(problem.working)[point.row][point.column], m)]]
      ensures forall q :: InBoard(q, problem.size) && q != point ==>
        problem.working[q.row][q.column] == old(problem.working)[q.row][q.column]
    {
      PointNormalize();
      var s := Toggle(problem.GetWorkingBoard(point), m);
      problem.SetWorkingBoard(point, s);
    }

    /** `key_mark_yes`: toggles a `Yes` mark under the cursor. */
    method KeyMarkYes()
      requires Valid()
      modifies this`point, problem`working
      ensures Valid()
      ensures point == Normalize(old(point), problem.size)
      ensures problem.working == old(problem.working)[point.row :=
        old(problem.working)[point.row][point.column := Toggle(old(problem.working)[point.row][point.column], Yes)]]
    {
      KeyMark(Yes);
    }

    /** `key_mark_no`: toggles a `No` mark under the cursor. */
    method KeyMarkNo()
      requires Valid()
      modifies this`point, problem`working
      ensures Valid()
      ensures point == Normalize(old(point), problem.size)
      ensures problem.working == old(problem.working)[point.row :=
        old(problem.working)[point.row][point.column := Toggle(old(problem.working)[point.row][point.column], No)]]
    {
      KeyMark(No);
    }

    /** `board_size`, read through to the puzzle. */
    function BoardSize(): (s: Size)
      reads this, problem
      requires Valid()
      ensures s == problem.size && s.row >= 1 && s.column >= 1
    {
      problem.BoardSize()
    }

    /** `get_working_board`, read through to the puzzle. */
    function GetWorkingBoard(p: Point): State
      reads this, problem
      requires Valid() && InBoard(p, problem.size)
    {
      problem.GetWorkingBoard(p)
    }

    /** `get_row_hints`, read through to the puzzle. */
    function GetRowHints(): seq<seq<nat>>
      reads this, problem
      requires Valid()
    {
      problem.GetRowHints()
    }

    /** `get_column_hints`, read through to the puzzle. */
    function GetColumnHints(): seq<seq<nat>>
      reads this, problem
      requires Valid()
    {
      problem.GetColumnHints()
    }

    /** `wrong_points`, read through to the puzzle. */
    method WrongPoints() returns (points: seq<Point>)
      requires Valid()
      ensures forall i :: 0 <= i < |points| ==> Wrong(problem.answer, problem.working, points[i])
      ensures forall p :: Wrong(problem.answer, problem.working, p) ==> p in points
      ensures forall i, j :: 0 <= i < j < |points| ==> Before(points[i], points[j])
    {
      points := problem.WrongPoints();
    }

    /** `is_correct_answer`, read through to the puzzle. */
    method IsCorrectAnswer() returns (ok: bool)
      requires Valid()
      ensures ok <==> forall r, c :: 0 <= r < problem.size.row && 0 <= c < problem.size.column ==>
        problem.answer[r][c] == ToMark(problem.working[r][c])
    {
      ok := problem.IsCorrectAnswer();
    }
  }
}

=== FILE: hints.dfy ===
/**
 * Hints of the game engine (src/game/problem.rs:173-227): for every row and
 * column, the lengths of its runs of `Yes` cells on a torus, rotated by a
 * random amount.
 */
module Hints {
  import opened Marks
  import opened Runs

  /**
   * The hint of one line before its rotation. It is the line's linear runs,
   * except that a line without any `Yes` cell gets `[0]`, and that a line
   * whose first and last cells are both `Yes` and which has more than one run
   * has its last run added into its first: on the torus the two are one run.
   */
  function CircularHint(line: seq<Mark>): (hint: seq<nat>)
    ensures hint != []
  {
    var runs := LinearRuns(line);
    if runs == [] then [0]
    else if |line| > 0 && line[0] == Yes && line[|line| - 1] == Yes && |runs| >= 2 then MergeEnds(runs)
    else runs
  }

  /** The first and last runs of a list made into one, at the front. */
  function MergeEnds(runs: seq<nat>): seq<nat>
    requires |runs| >= 2
  {
    [runs[0] + runs[|runs| - 1]] + runs[1..|runs| - 1]
  }

  lemma {:induction false} SumMergeEnds(runs: seq<nat>)
    requires |runs| >= 2
    ensures Sum(MergeEnds(runs)) == Sum(runs)
  {
    var first, mid, last := runs[0], runs[1..|runs| - 1], runs[|runs| - 1];
    assert runs == [first] + mid + [last];
    SumSnoc([first] + mid, last);
    SumCons(first, mid);
    SumCons(first + last, mid);
  }

  /** A hint adds up to the number of `Yes` cells of its line. */
  lemma {:induction false} CircularHintSum(line: seq<Mark>)
    ensures Sum(CircularHint(line)) == CountYes(line)
  {
    var runs := LinearRuns(line);
    LinearRunsSum(line);
    if runs != [] && |line| > 0 && line[0] == Yes && line[|line| - 1] == Yes && |runs| >= 2 {
      SumMergeEnds(runs);
    }
  }

  /**
   * A line without a `Yes` cell has the hint `[0]`; any other line has a hint
   * whose every entry is at least one.
   */
  lemma {:induction false} CircularHintShape(line: seq<Mark>)
    ensures Yes !in line <==> CircularHint(line) == [0]
    ensures Yes in line ==> forall i :: 0 <= i < |CircularHint(line)| ==> CircularHint(line)[i] >= 1
  {
    LinearRunsEmpty(line);
    LinearRunsPositive(line);
  }

  /**
   * A line that starts and ends with `Yes` and has a `No` somewhere has one
   * hint fewer than it has linear runs, its first hint being its first and
   * last runs together.
   */
  lemma {:induction false} CircularHintMerges(line: seq<Mark>)
    requires |line| > 0 && line[0] == Yes && line[|line| - 1] == Yes && No in line
    ensures var runs := LinearRuns(line);
      |runs| >= 2 && |CircularHint(line)| == |runs| - 1 &&
      CircularHint(line)[0] == runs[0] + runs[|runs| - 1]
  {
    TwoRunsAroundNo(line);
    assert CircularHint(line) == MergeEnds(LinearRuns(line));
  }

  /** A line that starts and ends with `Yes` and has a `No` has at least two runs. */
  lemma {:induction false} TwoRunsAroundNo(line: seq<Mark>)
    requires |line| > 0 && line[0] == Yes && line[|line| - 1] == Yes && No in line
    ensures |LinearRuns(line)| >= 2
  {
    var k :| 0 <= k < |line| && line[k] == No;
    var x, y := line[..k], line[k..];
    assert line == x + y;
    assert x[0] == Yes && x[0] in x;
    assert y[|y| - 1] == Yes && y[|y| - 1] in y;
    LinearRunsEmpty(x);
    LinearRunsEmpty(y);
    LinearRunsAppend(x, y);
  }

  /** Any other line with a `Yes` cell has exactly its linear runs as hint. */
  lemma {:induction false} CircularHintKeepsRuns(line: seq<Mark>)
    requires Yes in line
    requires !(line[0] == Yes && line[|line| - 1] == Yes && No in line)
    ensures CircularHint(line) == LinearRuns(line)
  {
    LinearRunsEmpty(line);
    if No !in line {
      forall i | 0 <= i < |line| ensures line[i] == Yes {
        assert line[i] in line;
      }
      LinearRunsAllYes(line);
    }
  }

  /** Cutting a sequence in four, and reading it from the second cut on. */
  lemma {:induction false} SplitFour<T>(s: seq<T>, a: nat, j: nat, b: nat)
    requires a <= j <= b <= |s|
    ensures s == s[..a] + (s[a..j] + (s[j..b] + s[b..]))
    ensures s[j..] + s[..j] == s[j..b] + ((s[b..] + s[..a]) + s[a..j])
  {
    assert s[j..] == s[j..b] + s[b..];
    assert s[..j] == s[..a] + s[a..j];
  }

  /** The runs of four pieces that meet at `No` cells, in two orders. */
  lemma {:induction false} RunsOfFour(P: seq<Mark>, M1: seq<Mark>, M2: seq<Mark>, S: seq<Mark>)
    requires M2 != [] && M2[0] == No && M2[|M2| - 1] == No
    requires M1 == [] || M1[0] == No
    ensures LinearRuns(P + (M1 + (M2 + S))) == LinearRuns(P) + (LinearRuns(M1) + (LinearRuns(M2) + LinearRuns(S)))
    ensures LinearRuns(M2 + ((S + P) + M1)) == LinearRuns(M2) + (LinearRuns(S + P) + LinearRuns(M1))
  {
    LinearRunsAppend(M2, S);
    assert (M2 + S)[0] == No;
    LinearRunsAppend(M1, M2 + S);
    assert (M1 + (M2 + S))[0] == No;
    LinearRunsAppend(P, M1 + (M2 + S));
    LinearRunsAppend(S + P, M1);
    LinearRunsAppend(M2, (S + P) + M1);
  }

  /**
   * A line cut at `a <= j < b`, where cells `j` and `b - 1` are `No` and so is
   * cell `a` unless `a == j`: no run crosses a cut, so the runs of the line,
   * and of the line read from `j` onwards, are those of the pieces.
   */
  lemma {:induction false} RunsAtCuts(line: seq<Mark>, a: nat, j: nat, b: nat)
    requires a <= j < b <= |line|
    requires line[j] == No && line[b - 1] == No
    requires a < j ==> line[a] == No
    ensures LinearRuns(line) == LinearRuns(line[..a]) + (LinearRuns(line[a..j]) + (LinearRuns(line[j..b]) + LinearRuns(line[b..])))
    ensures LinearRuns(line[j..] + line[..j]) == LinearRuns(line[j..b]) + (LinearRuns(line[b..] + line[..a]) + LinearRuns(line[a..j]))
  {
    SplitFour(line, a, j, b);
    RunsOfFour(line[..a], line[a..j], line[j..b], line[b..]);
  }

  /**
   * Where the cuts go for a line with a `No` at position `j`: after its
   * leading `Yes` cells, at `j`, and before its trailing `Yes` cells.
   */
  lemma {:induction false} CutBounds(line: seq<Mark>, j: nat)
    requires j < |line| && line[j] == No
    ensures LeadingYes(line) <= j < |line| - TrailingYes(line)
    ensures line[LeadingYes(line)] == No && line[|line| - TrailingYes(line) - 1] == No
  {
    LeadingYesCells(line);
    TrailingYesCells(line);
  }

  /**
   * Merging the ends of runs made of `a` leading and `t` trailing `Yes` cells
   * around middle runs `m1` (before the cut) and `m2` (after it). The four
   * lemmas after it give the rotation behind `CircularHintIsCircularRuns` in
   * the four cases of `a` and `t` being zero or not.
   */
  lemma {:induction false} MergeEndsOfPieces(a: nat, t: nat, m1: seq<nat>, m2: seq<nat>)
    ensures MergeEnds([a] + (m1 + (m2 + [t]))) == [a + t] + (m1 + m2)
  {
    var runs := [a] + (m1 + (m2 + [t]));
    assert runs[1..|runs| - 1] == m1 + m2;
  }

  lemma {:induction false} MergedListRotation(a: nat, t: nat, m1: seq<nat>, m2: seq<nat>)
    ensures IsRotationOf<nat>(MergeEnds([a] + (m1 + (m2 + [t]))), m2 + ([a + t] + m1))
  {
    var rr: seq<nat> := m2 + ([a + t] + m1);
    MergeEndsOfPieces(a, t, m1, m2);
    assert rr[|m2|..] == [a + t] + m1;
    assert rr[..|m2|] == m2;
    assert MergeEnds([a] + (m1 + (m2 + [t]))) == RotateLeft(rr, |m2|);
  }

  lemma {:induction false} LeadListRotation(a: nat, m1: seq<nat>, m2: seq<nat>)
    ensures IsRotationOf<nat>([a] + (m1 + m2), m2 + ([a] + m1))
  {
    var rr := m2 + ([a] + m1);
    assert rr[|m2|..] == [a] + m1;
    assert rr[..|m2|] == m2;
    assert [a] + (m1 + m2) == RotateLeft(rr, |m2|);
  }

  lemma {:induction false} TrailListRotation(t: nat, m1: seq<nat>, m2: seq<nat>)
    ensures IsRotationOf<nat>(m1 + (m2 + [t]), m2 + ([t] + m1))
  {
    var rr := m2 + ([t] + m1);
    assert rr[|m2| + 1..] == m1;
    assert rr[..|m2| + 1] == m2 + [t];
    assert m1 + (m2 + [t]) == RotateLeft(rr, |m2| + 1);
  }

  lemma {:induction false} PlainListRotation(m1: seq<nat>, m2: seq<nat>)
    ensures IsRotationOf(m1 + m2, m2 + m1)
  {
    var rr := m2 + m1;
    assert rr[|m2|..] == m1;
    assert rr[..|m2|] == m2;
    assert m1 + m2 == RotateLeft(rr, |m2|);
  }

  /** The hint of a line as its first and last cells decide it. */
  lemma {:induction false} CircularHintCases(line: seq<Mark>)
    requires Yes in line
    ensures var runs := LinearRuns(line);
      runs != [] &&
      (line[0] == Yes && line[|line| - 1] == Yes && |runs| >= 2 ==> CircularHint(line) == MergeEnds(runs)) &&
      (!(line[0] == Yes && line[|line| - 1] == Yes) ==> CircularHint(line) == runs)
  {
    LinearRunsEmpty(line);
  }

  /** A rotation of the merged runs of a line that starts and ends with `Yes` is one of its hint. */
  lemma {:induction false} MergedHintRotation(line: seq<Mark>, rr: seq<nat>)
    requires |line| > 0 && line[0] == Yes && line[|line| - 1] == Yes
    requires |LinearRuns(line)| >= 2 && IsRotationOf(MergeEnds(LinearRuns(line)), rr)
    ensures IsRotationOf(CircularHint(line), rr)
  {
  }

  /** A rotation of the runs of any other line with a `Yes` cell is one of its hint. */
  lemma {:induction false} KeptHintRotation(line: seq<Mark>, rr: seq<nat>)
    requires Yes in line && !(line[0] == Yes && line[|line| - 1] == Yes)
    requires IsRotationOf(LinearRuns(line), rr)
    ensures IsRotationOf(CircularHint(line), rr)
  {
    CircularHintCases(line);
  }

  /**
   * The hint is circular: for a line with a `Yes` cell, reading the line from
   * any of its `No` cells, wrapping around, gives linear runs of which the
   * hint is a rotation. So the hint does not depend on where the line is cut.
   */
  lemma {:induction false} CircularHintIsCircularRuns(line: seq<Mark>, j: nat)
    requires j < |line| && line[j] == No
    requires Yes in line
    ensures IsRotationOf(CircularHint(line), LinearRuns(line[j..] + line[..j]))
  {
    CutBounds(line, j);
    LeadingYesCells(line);
    TrailingYesCells(line);
    EdgeRuns(line, LeadingYes(line), |line| - TrailingYes(line));
    RotationAtCuts(line, LeadingYes(line), j, |line| - TrailingYes(line));
  }

  /**
   * `CircularHintIsCircularRuns` for a line cut after its `a` leading `Yes`
   * cells, at `j`, and before its trailing ones, which start at `b`.
   */
  lemma {:induction false} RotationAtCuts(line: seq<Mark>, a: nat, j: nat, b: nat)
    requires a <= j < b <= |line| && line[j] == No
    requires line[a] == No && line[b - 1] == No
    requires (a > 0 ==> LinearRuns(line[..a]) == [a]) && (a == 0 ==> LinearRuns(line[..a]) == [])
    requires var t := |line| - b; (t > 0 ==> LinearRuns(line[b..]) == [t]) && (t == 0 ==> LinearRuns(line[b..]) == [])
    requires var t := |line| - b; var w := line[b..] + line[..a];
      (a + t > 0 ==> LinearRuns(w) == [a + t]) && (a + t == 0 ==> LinearRuns(w) == [])
    requires line[0] == Yes <==> a > 0
    requires line[|line| - 1] == Yes <==> |line| - b > 0
    requires Yes in line
    ensures IsRotationOf(CircularHint(line), LinearRuns(line[j..] + line[..j]))
  {
    if a > 0 && b < |line| {
      RotationBothEndsYes(line, a, j, b);
    } else if a > 0 {
      RotationFirstYes(line, a, j, b);
    } else if b < |line| {
      RotationLastYes(line, a, j, b);
    } else {
      RotationEndsNo(line, a, j, b);
    }
  }

  /** `RotationAtCuts` when the line starts and ends with `Yes`. */
  lemma {:induction false} RotationBothEndsYes(line: seq<Mark>, a: nat, j: nat, b: nat)
    requires a <= j < b <= |line| && line[j] == No
    requires line[a] == No && line[b - 1] == No
    requires 0 < a && b < |line| && line[0] == Yes && line[|line| - 1] == Yes
    requires LinearRuns(line[..a]) == [a] && LinearRuns(line[b..]) == [|line| - b]
    requires LinearRuns(line[b..] + line[..a]) == [a + (|line| - b)]
    requires Yes in line
    ensures IsRotationOf(CircularHint(line), LinearRuns(line[j..] + line[..j]))
  {
    RunsAtCuts(line, a, j, b);
    var t, m1, m2 := |line| - b, LinearRuns(line[a..j]), LinearRuns(line[j..b]);
    var runs, rr := LinearRuns(line), LinearRuns(line[j..] + line[..j]);
    assert runs == [a] + (m1 + (m2 + [t]));
    assert rr == m2 + ([a + t] + m1);
    MergedListRotation(a, t, m1, m2);
    assert |runs| >= 2 && IsRotationOf(MergeEnds(runs), rr);
    MergedHintRotation(line, rr);
  }

  /** `RotationAtCuts` when the line starts with `Yes` and ends with `No`. */
  lemma {:induction false} RotationFirstYes(line: seq<Mark>, a: nat, j: nat, b: nat)
    requires a <= j < b <= |line| && line[j] == No
    requires line[a] == No && line[b - 1] == No
    requires 0 < a && b == |line| && line[0] == Yes
    requires LinearRuns(line[..a]) == [a] && LinearRuns(line[b..]) == []
    requires LinearRuns(line[b..] + line[..a]) == [a]
    requires Yes in line
    ensures IsRotationOf(CircularHint(line), LinearRuns(line[j..] + line[..j]))
  {
    RunsAtCuts(line, a, j, b);
    var m1, m2 := LinearRuns(line[a..j]), LinearRuns(line[j..b]);
    LeadListRotation(a, m1, m2);
    assert LinearRuns(line) == [a] + (m1 + m2);
    assert LinearRuns(line[j..] + line[..j]) == m2 + ([a] + m1);
    KeptHintRotation(line, LinearRuns(line[j..] + line[..j]));
  }

  /** `RotationAtCuts` when the line starts with `No` and ends with `Yes`. */
  lemma {:induction false} RotationLastYes(line: seq<Mark>, a: nat, j: nat, b: nat)
    requires a <= j < b <= |line| && line[j] == No
    requires line[a] == No && line[b - 1] == No
    requires a == 0 && b < |line| && line[|line| - 1] == Yes
    requires LinearRuns(line[..a]) == [] && LinearRuns(line[b..]) == [|line| - b]
    requires LinearRuns(line[b..] + line[..a]) == [|line| - b]
    requires Yes in line
    ensures IsRotationOf(CircularHint(line), LinearRuns(line[j..] + line[..j]))
  {
    RunsAtCuts(line, a, j, b);
    var m1, m2 := LinearRuns(line[a..j]), LinearRuns(line[j..b]);
    TrailListRotation(|line| - b, m1, m2);
    assert LinearRuns(line) == m1 + (m2 + [|line| - b]);
    assert LinearRuns(line[j..] + line[..j]) == m2 + ([|line| - b] + m1);
    KeptHintRotation(line, LinearRuns(line[j..] + line[..j]));
  }

  /** `RotationAtCuts` when the line starts and ends with `No`. */
  lemma {:induction false} RotationEndsNo(line: seq<Mark>, a: nat, j: nat, b: nat)
    requires a <= j < b <= |line| && line[j] == No
    requires line[a] == No && line[b - 1] == No
    requires a == 0 && b == |line|
    requires LinearRuns(line[..a]) == [] && LinearRuns(line[b..]) == []
    requires LinearRuns(line[b..] + line[..a]) == []
    requires Yes in line
    ensures IsRotationOf(CircularHint(line), LinearRuns(line[j..] + line[..j]))
  {
    RunsAtCuts(line, a, j, b);
    var m1, m2 := LinearRuns(line[a..j]), LinearRuns(line[j..b]);
    PlainListRotation(m1, m2);
    assert LinearRuns(line) == m1 + m2;
    assert LinearRuns(line[j..] + line[..j]) == m2 + m1;
    KeptHintRotation(line, LinearRuns(line[j..] + line[..j]));
  }

  /** The runs of the leading and trailing `Yes` cells of a line, apart and together. */
  lemma {:induction false} EdgeRuns(line: seq<Mark>, a: nat, b: nat)
    requires a < b <= |line| && line[a] == No && line[b - 1] == No
    requires forall i :: 0 <= i < a ==> line[i] == Yes
    requires forall i :: b <= i < |line| ==> line[i] == Yes
    ensures (a > 0 ==> LinearRuns(line[..a]) == [a]) && (a == 0 ==> LinearRuns(line[..a]) == [])
    ensures var t := |line| - b; (t > 0 ==> LinearRuns(line[b..]) == [t]) && (t == 0 ==> LinearRuns(line[b..]) == [])
    ensures var t := |line| - b; var w := line[b..] + line[..a];
      (a + t > 0 ==> LinearRuns(w) == [a + t]) && (a + t == 0 ==> LinearRuns(w) == [])
    ensures line[0] == Yes <==> a > 0
    ensures line[|line| - 1] == Yes <==> |line| - b > 0
  {
    if a > 0 { LinearRunsAllYes(line[..a]); } else { assert line[..a] == []; }
    if |line| - b > 0 { LinearRunsAllYes(line[b..]); } else { assert line[b..] == []; }
    var w := line[b..] + line[..a];
    if a + (|line| - b) > 0 {
      assert |w| == a + (|line| - b);
      forall i | 0 <= i < |w| ensures w[i] == Yes {
        if i < |line| - b { assert w[i] == line[b + i]; } else { assert w[i] == line[i - (|line| - b)]; }
      }
      LinearRunsAllYes(w);
    } else {
      assert w == [];
    }
  }

  /**
   * The end of the scan in `LineHint`: `closed` holds the runs a `No` cell
   * ended and `len` the run still open, and each branch of `set_hint` gives
   * the line's hint.
   */
  lemma {:induction false} FinishScan(line: seq<Mark>, closed: seq<nat>, len: nat)
    requires |line| >= 1 && ScanFrom(Start, line) == Scan(closed, len)
    ensures closed == [] ==> CircularHint(line) == [len]
    ensures closed != [] && line[0] == Yes ==> CircularHint(line) == closed[0 := closed[0] + len]
    ensures closed != [] && line[0] == No && len != 0 ==> CircularHint(line) == closed + [len]
    ensures closed != [] && line[0] == No && len == 0 ==> CircularHint(line) == closed
  {
    OpenAtEnd(Start, line);
    if closed != [] && len != 0 {
      var runs := closed + [len];
      assert runs[1..|runs| - 1] == closed[1..];
    }
  }

  /**
   * One line's hint as `set_hint` computes it: scan the line counting `Yes`
   * cells, push every run a `No` cell ends, then treat the run still open at
   * the end (pushed alone, added into the first run when the line starts with
   * `Yes`, pushed when it is not empty) and rotate the list left by `rotate`,
   * the caller's draw from `0..hint.len()`.
   */
  method LineHint(line: seq<Mark>, rotate: nat) returns (hint: seq<nat>)
    requires |line| >= 1
    requires rotate < |CircularHint(line)|
    ensures hint == RotateLeft(CircularHint(line), rotate)
  {
    hint := [];
    var len := 0;
    var beginYes := line[0] == Yes;
    for i := 0 to |line|
      invariant ScanFrom(Start, line[..i]) == Scan(hint, len)
    {
      assert Init(line[..i + 1]) == line[..i];
      if line[i] == Yes {
        len := len + 1;
      } else if len != 0 {
        hint := hint + [len];
        len := 0;
      }
    }
    assert line[..|line|] == line;
    FinishScan(line, hint, len);
    if hint == [] {
      hint := hint + [len];
    } else if beginYes {
      hint := hint[0 := hint[0] + len];
    } else if len != 0 {
      hint := hint + [len];
    }
    hint := RotateLeft(hint, rotate);
  }
}

=== FILE: legacy.dfy ===
/**
 * The older puzzle engine of src/problem.rs, which the binary does not build.
 * It has the same boards as the game engine but computes hints by another
 * rule: the run still open at the end of a line is always added into the
 * first hint, whatever the line's first cell, and the hints are not rotated.
 * Its `State` and `PointState` are the game's `Mark` and `State`; its points
 * have unsigned coordinates.
 */
module Legacy {
  import opened Outcomes
  import opened Marks
  import opened Runs
  import opened Hints
  import opened Engine

  /**
   * The hint of one line under the older rule: the runs a `No` cell ended, or
   * `[0]` if there are none, with the run still open at the end of the line
   * added into the first entry.
   */
  function LegacyHint(line: seq<Mark>): (hint: seq<nat>)
    ensures hint != []
  {
    var st := ScanFrom(Start, line);
    var base := if st.closed == [] then [0] else st.closed;
    base[0 := base[0] + st.open]
  }

  lemma {:induction false} SumBumpFirst(s: seq<nat>, t: nat)
    requires s != []
    ensures Sum(s[0 := s[0] + t]) == Sum(s) + t
  {
    assert s == [s[0]] + s[1..];
    assert s[0 := s[0] + t] == [s[0] + t] + s[1..];
    SumCons(s[0], s[1..]);
    SumCons(s[0] + t, s[1..]);
  }

  /** An older hint still adds up to the number of `Yes` cells of its line. */
  lemma {:induction false} LegacyHintSum(line: seq<Mark>)
    ensures Sum(LegacyHint(line)) == CountYes(line)
  {
    var st := ScanFrom(Start, line);
    var base := if st.closed == [] then [0] else st.closed;
    ScanSum(line);
    assert Sum([0]) == 0 by {
      assert Init([0 as nat]) == [];
    }
    SumBumpFirst(base, st.open);
  }

  /**
   * An older hint is `[0]` exactly for a line without a `Yes` cell, and has
   * no zero entry otherwise.
   */
  lemma {:induction false} LegacyHintShape(line: seq<Mark>)
    ensures Yes !in line <==> LegacyHint(line) == [0]
    ensures Yes in line ==> forall i :: 0 <= i < |LegacyHint(line)| ==> LegacyHint(line)[i] >= 1
  {
    var hint := LegacyHint(line);
    LegacyHintSum(line);
    CountYesZero(line);
    ClosedPositive(line);
    if hint == [0] {
      assert Sum(hint) == 0 by {
        assert Init([0 as nat]) == [];
      }
    }
    if Yes !in line {
      LinearRunsEmpty(line);
    }
  }

  /**
   * The older rule agrees with the circular hint except on a line that starts
   * with `No`, ends with `Yes` and has at least two runs: there it adds the
   * last run into the first although on the torus they are separated by the
   * `No` at the start.
   */
  lemma {:induction false} LegacyHintVsCircular(line: seq<Mark>)
    ensures LegacyHint(line) == CircularHint(line) <==>
      !(|line| > 0 && line[0] == No && line[|line| - 1] == Yes && |LinearRuns(line)| >= 2)
  {
    var st := ScanFrom(Start, line);
    if line == [] {
      assert LinearRuns(line) == [];
    } else {
      FinishScan(line, st.closed, st.open);
      if st.closed == [] {
        assert LegacyHint(line) == [st.open];
      } else if line[0] == No && st.open == 0 {
        assert LegacyHint(line) == st.closed;
      } else if line[0] == No {
        assert |LegacyHint(line)| == |st.closed| != |CircularHint(line)|;
      }
    }
  }

  /**
   * The line `No Yes No Yes` read on the torus has two runs of one cell, which
   * the circular hint reports, but the older rule reports one run of two.
   */
  lemma LegacyMergeCounterexample()
    ensures LegacyHint([No, Yes, No, Yes]) == [2]
    ensures CircularHint([No, Yes, No, Yes]) == [1, 1]
    ensures LinearRuns([Yes, No, Yes, No]) == [1, 1]
  {
    var line := [No, Yes, No, Yes];
    assert Init(line) == [No, Yes, No];
    assert Init([No, Yes, No]) == [No, Yes];
    assert Init([No, Yes]) == [No];
    assert Init([No]) == [];
    assert ScanFrom(Start, line) == Scan([1], 1);
    var turned := [Yes, No, Yes, No];
    assert Init(turned) == [Yes, No, Yes];
    assert Init([Yes, No, Yes]) == [Yes, No];
    assert Init([Yes, No]) == [Yes];
    assert Init([Yes]) == [];
    assert ScanFrom(Start, turned) == Scan([1, 1], 0);
  }

  /**
   * One line's hint as the older `set_hint` computes it: the same scan as the
   * game's, then a `0` pushed if nothing was, then the open run added into the
   * first entry.
   */
  method LegacyLineHint(line: seq<Mark>) returns (hint: seq<nat>)
    ensures hint == LegacyHint(line)
  {
    hint := [];
    var len := 0;
    for i := 0 to |line|
      invariant ScanFrom(Start, line[..i]) == Scan(hint, len)
    {
      assert Init(line[..i + 1]) == line[..i];
      if line[i] == Yes {
        len := len + 1;
      } else if len != 0 {
        hint := hint + [len];
        len := 0;
      }
    }
    assert line[..|line|] == line;
    if hint == [] {
      hint := hint + [0];
    }
    hint := hint[0 := hint[0] + len];
  }

  /** The older hints of a list of lines. */
  method LegacyLineHints(lines: seq<seq<Mark>>) returns (hints: seq<seq<nat>>)
    ensures |hints| == |lines|
    ensures forall i :: 0 <= i < |lines| ==> hints[i] == LegacyHint(lines[i])
  {
    hints := [];
    for i := 0 to |lines|
      invariant |hints| == i
      invariant forall k :: 0 <= k < i ==> hints[k] == LegacyHint(lines[k])
    {
      var hint := LegacyLineHint(lines[i]);
      hints := hints + [hint];
    }
  }

  /**
   * The boards the older `Problem::from` accepts without panicking: at least
   * one row and every row as long as the first. Unlike the game's engine it
   * accepts rows without cells, since its hint loop never reads column 0.
   */
  predicate LegacyShapeOk(answer: seq<seq<Mark>>)
    ensures LegacyShapeOk(answer) <==> exists size: Size :: size.row >= 1 && IsGrid(answer, size)
  {
    |answer| >= 1 && IsGrid(answer, Size(|answer|, |answer[0]|))
  }

  /** The older puzzle: answer, unrotated hints and the board the player works on. */
  class LegacyProblem {
    const answer: seq<seq<Mark>>
    const size: Size
    var rowHints: seq<seq<nat>>
    var columnHints: seq<seq<nat>>
    var working: seq<seq<State>>

    /** Both boards have the stated size, and every hint is its line's older hint. */
    ghost predicate Valid()
      reads this
    {
      size.row >= 1 &&
      IsGrid(answer, size) && IsGrid(working, size) &&
      |rowHints| == size.row &&
      (forall r :: 0 <= r < size.row ==> rowHints[r] == LegacyHint(answer[r])) &&
      |columnHints| == size.column &&
      (forall c :: 0 <= c < size.column ==> columnHints[c] == LegacyHint(Column(answer, size, c)))
    }

    /** `Problem::from`: sizes the board by its first row and leaves every working cell unmarked. */
    constructor(answer: seq<seq<Mark>>)
      requires LegacyShapeOk(answer)
      ensures Valid()
      ensures this.answer == answer && size == Size(|answer|, |answer[0]|)
      ensures working == Blank(size)
    {
      this.answer := answer;
      size := Size(|answer|, |answer[0]|);
      working := Blank(Size(|answer|, |answer[0]|));
      rowHints := [];
      columnHints := [];
      new;
      SetHint();
    }

    /**
     * `Problem::from` with its panics made explicit: `None` exactly for a board
     * without rows or with rows of different lengths.
     */
    static method Build(answer: seq<seq<Mark>>) returns (r: Option<LegacyProblem>)
      ensures r.None? <==> !LegacyShapeOk(answer)
      ensures r.Some? ==>
        fresh(r.value) && r.value.Valid() &&
        r.value.answer == answer && r.value.working == Blank(r.value.size)
    {
      if |answer| == 0 {
        return None;
      }
      var column := |answer[0]|;
      for i := 1 to |answer|
        invariant forall k :: 0 <= k < i ==> |answer[k]| == column
      {
        if |answer[i]| != column {
          return None;
        }
      }
      var p := new LegacyProblem(answer);
      return Some(p);
    }

    /** `set_hint`: the older hint of every row, then of every column. */
    method SetHint()
      requires size.row >= 1 && IsGrid(answer, size) && IsGrid(working, size)
      modifies this`rowHints, this`columnHints
      ensures Valid()
    {
      rowHints := LegacyLineHints(answer);
      columnHints := LegacyLineHints(Columns(answer, size));
    }

    /** `board_size`. */
    function BoardSize(): (s: Size)
      reads this
      requires Valid()
      ensures s.row >= 1 && IsGrid(answer, s) && IsGrid(working, s)
    {
      size
    }

    /** `get_answer_board`: the solution cell at `p`, which must lie on the board. */
    function GetAnswerBoard(p: Point): Mark
      reads this
      requires Valid() && InBoard(p, size)
    {
      answer[p.row][p.column]
    }

    /** `get_working_board`: the working cell at `p`, which must lie on the board. */
    function GetWorkingBoard(p: Point): State
      reads this
      requires Valid() && InBoard(p, size)
    {
      working[p.row][p.column]
    }

    /** `set_working_board`: puts `s` on the working cell `p` and changes nothing else. */
    method SetWorkingBoard(p: Point, s: State)
      requires Valid() && InBoard(p, size)
      modifies this`working
      ensures Valid()
      ensures working == old(working)[p.row := old(working)[p.row][p.column := s]]
      ensures forall q :: InBoard(q, size) && q != p ==>
        working[q.row][q.column] == old(working)[q.row][q.column]
    {
      working := working[p.row := working[p.row][p.column := s]];
    }

    /**
     * `wrong_points`: every cell at which the working board, read as marks,
     * differs from the answer, each once, in row-major order.
     */
    method WrongPoints() returns (points: seq<Point>)
      requires Valid()
      ensures forall i :: 0 <= i < |points| ==> Wrong(answer, working, points[i])
      ensures forall p :: Wrong(answer, working, p) ==> p in points
      ensures forall i, j :: 0 <= i < j < |points| ==> Before(points[i], points[j])
    {
      points := WrongPointsOf(answer, working, size);
    }

    /** `is_correct_answer`: the working board, read as marks, is the answer. */
    method IsCorrectAnswer() returns (ok: bool)
      requires Valid()
      ensures ok <==> forall r, c :: 0 <= r < size.row && 0 <= c < size.column ==>
        answer[r][c] == ToMark(working[r][c])
    {
      var points := WrongPoints();
      ok := points == [];
      if ok {
        forall r, c | 0 <= r < size.row && 0 <= c < size.column
          ensures answer[r][c] == ToMark(working[r][c])
        {
          assert !Wrong(answer, working, Point(r, c));
        }
      } else {
        assert Wrong(answer, working, points[0]);
      }
    }
  }
}

=== FILE: marks.dfy ===
/**
 * Cell values, board sizes and points of the game engine
 * (src/game/problem.rs).
 */
module Marks {

  /** The ground truth of one solution cell, and the two marks a player can place. */
  datatype Mark = Yes | No

  /** What the player has put on one working cell. */
  datatype State = NotMarked | Marked(mark: Mark)

  /** Number of rows and columns of a board. */
  datatype Size = Size(row: nat, column: nat)

  /** A signed board coordinate; directional deltas add to it before any wrap-around. */
  datatype Point = Point(row: int, column: int)

  /** `From<Mark> for State`: a mark becomes the state of a cell carrying it. */
  function ToState(m: Mark): (s: State)
    ensures s != NotMarked && s.mark == m
  {
    Marked(m)
  }

  /**
   * `From<State> for Mark`: the truth value a working cell stands for when the
   * board is compared with the answer. Only a cell marked `Yes` counts as filled;
   * an untouched cell and one marked `No` both count as empty.
   */
  function ToMark(s: State): (m: Mark)
    ensures m == Yes <==> s == Marked(Yes)
  {
    match s
    case Marked(Yes) => Yes
    case _ => No
  }

  /** Converting a mark to a state and back gives the mark again. */
  lemma ToMarkToState(m: Mark)
    ensures ToMark(ToState(m)) == m
  {
  }

  /** Component-wise sum of two points. */
  function Add(p: Point, q: Point): (r: Point)
    ensures Sub(r, q) == p
  {
    Point(p.row + q.row, p.column + q.column)
  }

  /** Component-wise difference of two points. */
  function Sub(p: Point, q: Point): (r: Point)
  {
    Point(p.row - q.row, p.column - q.column)
  }

  /** Subtracting then adding the same point is the identity, so `Sub` undoes `Add` both ways. */
  lemma SubThenAdd(p: Point, q: Point)
    ensures Add(Sub(p, q), q) == p
  {
  }
}

=== FILE: outcomes.dfy ===
/** Failure-carrying results shared by the modules of the model. */
module Outcomes {

  /** A value that may be absent; `None` also stands for a construction that panics. */
  datatype Option<T> = None | Some(value: T)

  /** A value or an error, as Rust's `Result`. */
  datatype Result<T, E> = Ok(value: T) | Err(error: E)
}

=== FILE: problem.dfy ===
/**
 * The puzzle engine of the game (src/game/problem.rs:91-228): an answer
 * board, the hints derived from it, and a working board the player marks.
 */
module Engine {
  import opened Outcomes
  import opened Marks
  import opened Runs
  import opened Hints

  /** `g` has `size.row` rows of `size.column` cells each. */
  predicate IsGrid<T>(g: seq<seq<T>>, size: Size)
  {
    |g| == size.row && forall r :: 0 <= r < |g| ==> |g[r]| == size.column
  }

  /**
   * The boards `Problem::from` accepts without panicking: at least one row
   * (it reads row 0), every row as long as the first, and at least one column
   * (the hint computation reads column 0 of every row).
   */
  predicate ShapeOk(answer: seq<seq<Mark>>)
    ensures ShapeOk(answer) <==> exists size: Size :: size.row >= 1 && size.column >= 1 && IsGrid(answer, size)
  {
    |answer| >= 1 && |answer[0]| >= 1 && IsGrid(answer, Size(|answer|, |answer[0]|))
  }

  /** Column `c` of a board, read top to bottom. */
  function Column<T>(g: seq<seq<T>>, size: Size, c: nat): (line: seq<T>)
    requires IsGrid(g, size) && c < size.column
    ensures |line| == size.row
    ensures forall r :: 0 <= r < size.row ==> line[r] == g[r][c]
  {
    seq(size.row, r requires 0 <= r < size.row => g[r][c])
  }

  /** A working board of the given size on which nothing is marked yet. */
  function Blank(size: Size): (g: seq<seq<State>>)
    ensures IsGrid(g, size)
    ensures forall r, c :: 0 <= r < size.row && 0 <= c < size.column ==> g[r][c] == NotMarked
  {
    seq(size.row, _ => seq(size.column, _ => NotMarked))
  }

  /** The columns of a board, left to right. */
  function Columns<T>(g: seq<seq<T>>, size: Size): (columns: seq<seq<T>>)
    requires IsGrid(g, size)
    ensures |columns| == size.column
    ensures forall c :: 0 <= c < size.column ==> columns[c] == Column(g, size, c)
  {
    seq(size.column, c requires 0 <= c < size.column => Column(g, size, c))
  }

  /** `p` lies on a board of the given size. */
  predicate InBoard(p: Point, size: Size)
  {
    0 <= p.row < size.row && 0 <= p.column < size.column
  }

  /**
   * `p` is a cell of both boards at which the working board, read as a mark,
   * disagrees with the answer: a `Yes` cell not marked `Yes`, or a `No` cell
   * marked `Yes`. A `No` cell left unmarked is not wrong.
   */
  predicate Wrong(answer: seq<seq<Mark>>, working: seq<seq<State>>, p: Point)
    ensures Wrong(answer, working, p) ==> 0 <= p.row < |answer| && 0 <= p.column < |answer[p.row]|
    ensures 0 <= p.row < |answer| && p.row < |working| &&
            0 <= p.column < |answer[p.row]| && p.column < |working[p.row]| ==>
      (Wrong(answer, working, p) <==>
        (answer[p.row][p.column] == Yes <==> working[p.row][p.column] != Marked(Yes)))
  {
    0 <= p.row < |answer| && p.row < |working| &&
    0 <= p.column < |answer[p.row]| && p.column < |working[p.row]| &&
    answer[p.row][p.column] != ToMark(working[p.row][p.column])
  }

  /** `p` comes before `q` in row-major order. */
  predicate Before(p: Point, q: Point)
  {
    p.row < q.row || (p.row == q.row && p.column < q.column)
  }

  /**
   * Random rotation amounts as `set_hint` draws them: one per row and one per
   * column, each less than the length of the hint it rotates.
   */
  predicate RotationsFit(answer: seq<seq<Mark>>, size: Size, rowRotations: seq<nat>, columnRotations: seq<nat>)
    requires IsGrid(answer, size)
  {
    |rowRotations| == size.row &&
    (forall r :: 0 <= r < size.row ==> rowRotations[r] < |CircularHint(answer[r])|) &&
    |columnRotations| == size.column &&
    (forall c :: 0 <= c < size.column ==> columnRotations[c] < |CircularHint(Column(answer, size, c))|)
  }

  /** `hint` is the hint of `line` after some rotation. */
  ghost predicate IsHintOf(hint: seq<nat>, line: seq<Mark>)
  {
    IsRotationOf(hint, CircularHint(line))
  }

  lemma RotatedIsHint(line: seq<Mark>, k: nat)
    requires k <= |CircularHint(line)|
    ensures IsHintOf(RotateLeft(CircularHint(line), k), line)
  {
  }

  /**
   * Whatever the random rotation, a stored hint has the entries of its line's
   * hint, so it adds up to the line's number of `Yes` cells.
   */
  lemma {:induction false} HintSum(hint: seq<nat>, line: seq<Mark>)
    requires IsHintOf(hint, line)
    ensures multiset(hint) == multiset(CircularHint(line))
    ensures Sum(hint) == CountYes(line)
  {
    var base := CircularHint(line);
    var k :| 0 <= k <= |base| && hint == RotateLeft(base, k);
    RotateLeftPermutes(base, k);
    RotateLeftSum(base, k);
    CircularHintSum(line);
  }

  /**
   * A stored hint is `[0]` exactly for a line without a `Yes` cell; otherwise
   * every entry is at least one.
   */
  lemma {:induction false} HintShape(hint: seq<nat>, line: seq<Mark>)
    requires IsHintOf(hint, line)
    ensures hint != []
    ensures Yes !in line <==> hint == [0]
    ensures Yes in line ==> forall i :: 0 <= i < |hint| ==> hint[i] >= 1
  {
    var base := CircularHint(line);
    var k :| 0 <= k <= |base| && hint == RotateLeft(base, k);
    CircularHintShape(line);
    if Yes in line {
      RotateLeftPositive(base, k);
      assert hint[0] >= 1;
    } else {
      assert hint == [0];
    }
  }

  /**
   * A stored hint of a line that starts and ends with `Yes` and has a `No` has
   * one entry fewer than the line has linear runs.
   */
  lemma {:induction false} HintMerges(hint: seq<nat>, line: seq<Mark>)
    requires IsHintOf(hint, line)
    requires |line| > 0 && line[0] == Yes && line[|line| - 1] == Yes && No in line
    ensures |hint| == |LinearRuns(line)| - 1
  {
    CircularHintMerges(line);
  }

  /**
   * A stored hint does not depend on where its line is cut: reading the line
   * from any `No` cell, wrapping around, gives runs of which the hint is a
   * rotation.
   */
  lemma {:induction false} HintIsCircular(hint: seq<nat>, line: seq<Mark>, j: nat)
    requires IsHintOf(hint, line)
    requires j < |line| && line[j] == No && Yes in line
    ensures IsRotationOf(hint, LinearRuns(line[j..] + line[..j]))
  {
    var runs := LinearRuns(line[j..] + line[..j]);
    CircularHintIsCircularRuns(line, j);
    var m :| 0 <= m <= |runs| && CircularHint(line) == RotateLeft(runs, m);
    var k :| 0 <= k <= |CircularHint(line)| && hint == RotateLeft(CircularHint(line), k);
    RotateLeftTwice(runs, m, k);
  }

  /**
   * The hints of a list of lines, as `set_hint` computes them for the rows and
   * then for the columns: each line's hint rotated left by its own amount.
   */
  method LineHints(lines: seq<seq<Mark>>, rotations: seq<nat>) returns (hints: seq<seq<nat>>)
    requires |rotations| == |lines|
    requires forall i :: 0 <= i < |lines| ==> |lines[i]| >= 1 && rotations[i] < |CircularHint(lines[i])|
    ensures |hints| == |lines|
    ensures forall i :: 0 <= i < |lines| ==> hints[i] == RotateLeft(CircularHint(lines[i]), rotations[i])
  {
    hints := [];
    for i := 0 to |lines|
      invariant |hints| == i
      invariant forall k :: 0 <= k < i ==> hints[k] == RotateLeft(CircularHint(lines[k]), rotations[k])
    {
      var hint := LineHint(lines[i], rotations[i]);
      hints := hints + [hint];
    }
  }

  /**
   * The loop of `wrong_points`, row by row and column by column: every cell at
   * which the working board, read as marks, differs from the answer, each once,
   * in row-major order.
   */
  method WrongPointsOf(answer: seq<seq<Mark>>, working: seq<seq<State>>, size: Size)
    returns (points: seq<Point>)
    requires IsGrid(answer, size) && IsGrid(working, size)
    ensures forall i :: 0 <= i < |points| ==> Wrong(answer, working, points[i])
    ensures forall p :: Wrong(answer, working, p) ==> p in points
    ensures forall i, j :: 0 <= i < j < |points| ==> Before(points[i], points[j])
  {
    points := [];
    for row := 0 to size.row
      invariant forall i :: 0 <= i < |points| ==>
        Wrong(answer, working, points[i]) && points[i].row < row
      invariant forall p :: Wrong(answer, working, p) && p.row < row ==> p in points
      invariant forall i, j :: 0 <= i < j < |points| ==> Before(points[i], points[j])
    {
      for column := 0 to size.column
        invariant forall i :: 0 <= i < |points| ==>
          Wrong(answer, working, points[i]) && Before(points[i], Point(row, column))
        invariant forall p :: Wrong(answer, working, p) && Before(p, Point(row, column)) ==> p in points
        invariant forall i, j :: 0 <= i < j < |points| ==> Before(points[i], points[j])
      {
        var point := Point(row, column);
        if answer[row][column] != ToMark(working[row][column]) {
          points := points + [point];
        }
      }
    }
  }

  /** A puzzle: its answer, its hints and the board the player works on. */
  class Problem {
    const answer: seq<seq<Mark>>
    const size: Size
    var rowHints: seq<seq<nat>>
    var columnHints: seq<seq<nat>>
    var working: seq<seq<State>>

    /**
     * Both boards have the stated size, which is at least one by one, and
     * every row and column hint is a rotation of the hint of its line.
     */
    ghost predicate Valid()
      reads this
    {
      size.row >= 1 && size.column >= 1 &&
      IsGrid(answer, size) && IsGrid(working, size) &&
      |rowHints| == size.row &&
      (forall r :: 0 <= r < size.row ==> IsHintOf(rowHints[r], answer[r])) &&
      |columnHints| == size.column &&
      (forall c :: 0 <= c < size.column ==> IsHintOf(columnHints[c], Column(answer, size, c)))
    }

    /**
     * `Problem::from`: takes the answer board, sizes it by its row count and
     * first-row length, starts with an unmarked working board and computes
     * the hints with the given rotation amounts.
     */
    constructor(answer: seq<seq<Mark>>, rowRotations: seq<nat>, columnRotations: seq<nat>)
      requires ShapeOk(answer)
      requires RotationsFit(answer, Size(|answer|, |answer[0]|), rowRotations, columnRotations)
      ensures Valid()
      ensures this.answer == answer && size == Size(|answer|, |answer[0]|)
      ensures working == Blank(size)
      ensures forall r :: 0 <= r < size.row ==>
        rowHints[r] == RotateLeft(CircularHint(answer[r]), rowRotations[r])
      ensures forall c :: 0 <= c < size.column ==>
        columnHints[c] == RotateLeft(CircularHint(Column(answer, size, c)), columnRotations[c])
    {
      this.answer := answer;
      size := Size(|answer|, |answer[0]|);
      working := Blank(Size(|answer|, |answer[0]|));
      rowHints := [];
      columnHints := [];
      new;
      SetHint(rowRotations, columnRotations);
    }

    /**
     * `Problem::from` with its panics made explicit: `None` exactly for a
     * board without rows, with rows of different lengths or without columns.
     */
    static method Build(answer: seq<seq<Mark>>, rowRotations: seq<nat>, columnRotations: seq<nat>)
      returns (r: Option<Problem>)
      requires ShapeOk(answer) ==>
        RotationsFit(answer, Size(|answer|, |answer[0]|), rowRotations, columnRotations)
      ensures r.None? <==> !ShapeOk(answer)
      ensures r.Some? ==>
        fresh(r.value) && r.value.Valid() &&
        r.value.answer == answer && r.value.working == Blank(r.value.size)
    {
      if |answer| == 0 {
        return None;
      }
      var column := |answer[0]|;
      for i := 1 to |answer|
        invariant forall k :: 0 <= k < i ==> |answer[k]| == column
      {
        if |answer[i]| != column {
          return None;
        }
      }
      if column == 0 {
        return None;
      }
      var p := new Problem(answer, rowRotations, columnRotations);
      return Some(p);
    }

    /**
     * `set_hint`: the hint of every row, then of every column, each rotated
     * left by its own amount.
     */
    method SetHint(rowRotations: seq<nat>, columnRotations: seq<nat>)
      requires size.row >= 1 && size.column >= 1
      requires IsGrid(answer, size) && IsGrid(working, size)
      requires RotationsFit(answer, size, rowRotations, columnRotations)
      modifies this`rowHints, this`columnHints
      ensures Valid()
      ensures |rowHints| == size.row && |columnHints| == size.column
      ensures forall r :: 0 <= r < size.row ==>
        rowHints[r] == RotateLeft(CircularHint(answer[r]), rowRotations[r])
      ensures forall c :: 0 <= c < size.column ==>
        columnHints[c] == RotateLeft(CircularHint(Column(answer, size, c)), columnRotations[c])
    {
      rowHints := LineHints(answer, rowRotations);
      columnHints := LineHints(Columns(answer, size), columnRotations);
      forall r | 0 <= r < size.row
        ensures IsHintOf(rowHints[r], answer[r])
      {
        RotatedIsHint(answer[r], rowRotations[r]);
      }
      forall c | 0 <= c < size.column
        ensures IsHintOf(columnHints[c], Column(answer, size, c))
      {
        RotatedIsHint(Column(answer, size, c), columnRotations[c]);
      }
    }

    /** `board_size`: the board is at least one cell in each direction. */
    function BoardSize(): (s: Size)
      reads this
      requires Valid()
      ensures s.row >= 1 && s.column >= 1 && IsGrid(answer, s) && IsGrid(working, s)
    {
      size
    }

    /** `get_answer_board`: the solution cell at `p`, which must lie on the board. */
    function GetAnswerBoard(p: Point): (m: Mark)
      reads this
      requires Valid() && InBoard(p, size)
    {
      answer[p.row][p.column]
    }

    /** `get_working_board`: the working cell at `p`, which must lie on the board. */
    function GetWorkingBoard(p: Point): (s: State)
      reads this
      requires Valid() && InBoard(p, size)
    {
      working[p.row][p.column]
    }

    /** `get_row_hints`: one hint per row, each a rotation of its row's hint. */
    function GetRowHints(): (hints: seq<seq<nat>>)
      reads this
      requires Valid()
      ensures |hints| == size.row
      ensures forall r :: 0 <= r < size.row ==> IsHintOf(hints[r], answer[r])
    {
      rowHints
    }

    /** `get_column_hints`: one hint per column, each a rotation of its column's hint. */
    function GetColumnHints(): (hints: seq<seq<nat>>)
      reads this
      requires Valid()
      ensures |hints| == size.column
      ensures forall c :: 0 <= c < size.column ==> IsHintOf(hints[c], Column(answer, size, c))
    {
      columnHints
    }

    /**
     * `set_working_board`: puts `s` on the working cell `p`. The answer, the
     * hints, the size and every other working cell stay as they were.
     */
    method SetWorkingBoard(p: Point, s: State)
      requires Valid() && InBoard(p, size)
      modifies this`working
      ensures Valid()
      ensures working == old(working)[p.row := old(working)[p.row][p.column := s]]
      ensures forall q :: InBoard(q, size) && q != p ==>
        working[q.row][q.column] == old(working)[q.row][q.column]
    {
      working := working[p.row := working[p.row][p.column := s]];
    }

    /**
     * `wrong_points`: every cell at which the working board, read as marks,
     * differs from the answer, each once, in row-major order.
     */
    method WrongPoints() returns (points: seq<Point>)
      requires Valid()
      ensures forall i :: 0 <= i < |points| ==> Wrong(answer, working, points[i])
      ensures forall p :: Wrong(answer, working, p) ==> p in points
      ensures forall i, j :: 0 <= i < j < |points| ==> Before(points[i], points[j])
    {
      points := WrongPointsOf(answer, working, size);
    }

    /** `is_correct_answer`: the working board, read as marks, is the answer. */
    method IsCorrectAnswer() returns (ok: bool)
      requires Valid()
      ensures ok <==> forall r, c :: 0 <= r < size.row && 0 <= c < size.column ==>
        answer[r][c] == ToMark(working[r][c])
    {
      var points := WrongPoints();
      ok := points == [];
      if ok {
        forall r, c | 0 <= r < size.row && 0 <= c < size.column
          ensures answer[r][c] == ToMark(working[r][c])
        {
          assert !Wrong(answer, working, Point(r, c));
        }
      } else {
        assert Wrong(answer, working, points[0]);
      }
    }
  }
}

=== FILE: puzzle_file.dfy ===
/**
 * The puzzle file read at start-up (src/main.rs:40-72): a first line
 * `rows cols`, then exactly `rows` lines of exactly `cols` whitespace-separated
 * tokens, where the token `0` is an empty cell and any other token a filled
 * one, and then nothing more.
 */
module PuzzleFile {
  import opened Outcomes
  import opened Marks
  import opened Engine

  /** Why a puzzle file is refused: its layout, or a size that is not a number. */
  datatype FileError = InvalidFormat | InvalidNumber

  /** The characters `split_whitespace` separates on: Unicode `White_Space`. */
  predicate IsSpace(c: char)
  {
    c in {'\U{9}', '\U{A}', '\U{B}', '\U{C}', '\U{D}', '\U{20}', '\U{85}', '\U{A0}', '\U{1680}',
          '\U{2000}', '\U{2001}', '\U{2002}', '\U{2003}', '\U{2004}', '\U{2005}', '\U{2006}',
          '\U{2007}', '\U{2008}', '\U{2009}', '\U{200A}', '\U{2028}', '\U{2029}', '\U{202F}',
          '\U{205F}', '\U{3000}'}
  }

  /** A token: at least one character, none of them whitespace. */
  predicate IsWord(w: string)
  {
    |w| >= 1 && forall i :: 0 <= i < |w| ==> !IsSpace(w[i])
  }

  /** The longest prefix of `s` without whitespace. */
  function Word(s: string): (w: string)
    ensures |w| <= |s| && w == s[..|w|]
    ensures forall i :: 0 <= i < |w| ==> !IsSpace(w[i])
    ensures |w| < |s| ==> IsSpace(s[|w|])
  {
    if s == [] || IsSpace(s[0]) then [] else [s[0]] + Word(s[1..])
  }

  /**
   * `split_whitespace`: the maximal runs of non-whitespace characters, in
   * order. Laid end to end they are the string with its whitespace removed,
   * so no other character is lost.
   */
  function Tokens(s: string): (ts: seq<string>)
    ensures Concat(ts) == Strip(s)
    decreases |s|
  {
    if s == [] then []
    else if IsSpace(s[0]) then Tokens(s[1..])
    else
      var w := Word(s);
      StripWord(s);
      assert ([w] + Tokens(s[|w|..]))[1..] == Tokens(s[|w|..]);
      [w] + Tokens(s[|w|..])
  }

  /** The characters of a string that are not whitespace, in order. */
  function Strip(s: string): string
  {
    if s == [] then [] else (if IsSpace(s[0]) then [] else [s[0]]) + Strip(s[1..])
  }

  /** Strings laid end to end. */
  function Concat(ws: seq<string>): string
  {
    if ws == [] then [] else ws[0] + Concat(ws[1..])
  }

  /** A string that starts with a word keeps that word whole when its whitespace is removed. */
  lemma {:induction false} StripWord(s: string)
    requires s != [] && !IsSpace(s[0])
    ensures Strip(s) == Word(s) + Strip(s[|Word(s)|..])
    decreases |s|
  {
    var t := s[1..];
    assert Strip(s) == [s[0]] + Strip(t);
    if t == [] || IsSpace(t[0]) {
      assert Word(s) == [s[0]];
      assert s[|Word(s)|..] == t;
    } else {
      StripWord(t);
      var v := Word(t);
      assert Word(s) == [s[0]] + v;
      assert s[|Word(s)|..] == t[|v|..];
      assert Strip(t) == v + Strip(t[|v|..]);
      assert [s[0]] + (v + Strip(t[|v|..])) == ([s[0]] + v) + Strip(t[|v|..]);
    }
  }

  /** Every token is a word. */
  lemma {:induction false} TokensAreWords(s: string)
    ensures forall i :: 0 <= i < |Tokens(s)| ==> IsWord(Tokens(s)[i])
    decreases |s|
  {
    if s == [] {
    } else if IsSpace(s[0]) {
      TokensAreWords(s[1..]);
    } else {
      var w := Word(s);
      TokensAreWords(s[|w|..]);
    }
  }

  /** Words joined with single spaces. */
  function Join(ws: seq<string>): string
  {
    if ws == [] then "" else if |ws| == 1 then ws[0] else ws[0] + " " + Join(ws[1..])
  }

  /** Whitespace only, possibly nothing. */
  predicate IsGap(g: string)
  {
    forall i :: 0 <= i < |g| ==> IsSpace(g[i])
  }

  /** `gaps[0] + ws[0] + gaps[1] + ... + ws[n - 1] + gaps[n]`. */
  function Interleave(gaps: seq<string>, ws: seq<string>): string
    requires |gaps| == |ws| + 1
  {
    if ws == [] then gaps[0] else gaps[0] + (ws[0] + Interleave(gaps[1..], ws[1..]))
  }

  /** Whitespace before a string adds no token. */
  lemma {:induction false} TokensAfterGap(g: string, s: string)
    requires IsGap(g)
    ensures Tokens(g + s) == Tokens(s)
  {
    if g != [] {
      assert (g + s)[0] == g[0];
      assert (g + s)[1..] == g[1..] + s;
      TokensAfterGap(g[1..], s);
    } else {
      assert g + s == s;
    }
  }

  /** The first token of a word followed by whitespace, or by nothing, is the word. */
  lemma {:induction false} WordBefore(w: string, rest: string)
    requires forall i :: 0 <= i < |w| ==> !IsSpace(w[i])
    requires rest == [] || IsSpace(rest[0])
    ensures Word(w + rest) == w
  {
    if w == [] {
    } else {
      assert (w + rest)[1..] == w[1..] + rest;
      WordBefore(w[1..], rest);
    }
  }

  /** A word followed by whitespace, or by nothing, is split off as the first token. */
  lemma {:induction false} TokensOfWordThen(w: string, rest: string)
    requires IsWord(w)
    requires rest == [] || IsSpace(rest[0])
    ensures Tokens(w + rest) == [w] + Tokens(rest)
  {
    WordBefore(w, rest);
    assert (w + rest)[0] == w[0];
    assert (w + rest)[|w|..] == rest;
  }

  /**
   * `split_whitespace` gives back the words of any line made of words with
   * whitespace between them and, optionally, before the first and after the
   * last: it splits at every gap and nowhere else.
   */
  lemma {:induction false} TokensOfInterleave(gaps: seq<string>, ws: seq<string>)
    requires |gaps| == |ws| + 1
    requires forall i :: 0 <= i < |gaps| ==> IsGap(gaps[i])
    requires forall i :: 0 < i < |ws| ==> gaps[i] != []
    requires forall i :: 0 <= i < |ws| ==> IsWord(ws[i])
    ensures Tokens(Interleave(gaps, ws)) == ws
  {
    if ws == [] {
      TokensAfterGap(gaps[0], []);
      assert gaps[0] + [] == gaps[0];
    } else {
      var rest := Interleave(gaps[1..], ws[1..]);
      TokensAfterGap(gaps[0], ws[0] + rest);
      if |ws| == 1 {
        assert rest == gaps[1];
      } else {
        assert rest == gaps[1] + (ws[1] + Interleave(gaps[2..], ws[2..]));
        assert rest[0] == gaps[1][0];
      }
      TokensOfWordThen(ws[0], rest);
      TokensOfInterleave(gaps[1..], ws[1..]);
    }
  }

  /** Splitting words joined with spaces gives the words back. */
  lemma {:induction false} TokensOfJoin(ws: seq<string>)
    requires forall i :: 0 <= i < |ws| ==> IsWord(ws[i])
    ensures Tokens(Join(ws)) == ws
  {
    if ws == [] {
    } else if |ws| == 1 {
      var w := ws[0];
      WordBefore(w, []);
      assert w + [] == w;
      assert w[|w|..] == [];
    } else {
      var w, rest := ws[0], Join(ws[1..]);
      assert w + " " + rest == w + (" " + rest);
      TokensOfWordThen(w, " " + rest);
      TokensAfterGap(" ", rest);
      TokensOfJoin(ws[1..]);
    }
  }

  /** The largest `usize` on a 64-bit target. */
  const MaxUsize: nat := 0xFFFF_FFFF_FFFF_FFFF

  predicate IsDigit(c: char)
  {
    '0' <= c <= '9'
  }

  predicate AllDigits(s: string)
  {
    forall i :: 0 <= i < |s| ==> IsDigit(s[i])
  }

  /** The value of a string of decimal digits, most significant first. */
  function Decimal(s: string): nat
    requires AllDigits(s)
  {
    if s == [] then 0 else 10 * Decimal(s[..|s| - 1]) + (s[|s| - 1] as int - '0' as int)
  }

  /**
   * `str::parse::<usize>`: an optional `+`, then at least one decimal digit and
   * nothing else, with a value that fits in a `usize`.
   */
  function ParseUsize(t: string): (r: Option<nat>)
    ensures r.Some? ==> r.value <= MaxUsize
  {
    var digits := if |t| > 0 && t[0] == '+' then t[1..] else t;
    if |digits| == 0 || !AllDigits(digits) then None
    else if Decimal(digits) <= MaxUsize then Some(Decimal(digits))
    else None
  }

  /** The decimal digits of `n`, without leading zeros. */
  function ShowNat(n: nat): (s: string)
    ensures |s| >= 1 && AllDigits(s)
    ensures Decimal(s) == n
  {
    var d := ['0' + (n % 10) as char];
    if n < 10 then d
    else
      var s := ShowNat(n / 10) + d;
      assert s[..|s| - 1] == ShowNat(n / 10);
      s
  }

  /** Every size a `usize` can hold is read back from its decimal form. */
  lemma ParseShowNat(n: nat)
    requires n <= MaxUsize
    ensures ParseUsize(ShowNat(n)) == Some(n)
  {
  }

  /** A cell token: exactly `0` is an empty cell, any other token a filled one. */
  function MarkOfToken(t: string): (m: Mark)
    ensures m == No <==> t == "0"
  {
    if t == "0" then No else Yes
  }

  /** The cells of one grid line holding exactly `columns` tokens. */
  function RowOf(line: string, columns: nat): (row: seq<Mark>)
    requires |Tokens(line)| == columns
    ensures |row| == columns
    ensures forall c :: 0 <= c < columns ==> (row[c] == No <==> Tokens(line)[c] == "0")
  {
    seq(columns, c requires 0 <= c < columns => MarkOfToken(Tokens(line)[c]))
  }

  /**
   * The header line: two tokens, each read as a size. Any other number of
   * tokens is a format error, and a token that is not a size a number error.
   */
  function Header(line: string): (r: Result<Size, FileError>)
    ensures r.Ok? <==>
      |Tokens(line)| == 2 && ParseUsize(Tokens(line)[0]).Some? && ParseUsize(Tokens(line)[1]).Some?
    ensures r.Ok? ==> r.value.row <= MaxUsize && r.value.column <= MaxUsize
    ensures r.Ok? ==>
      ParseUsize(Tokens(line)[0]) == Some(r.value.row) && ParseUsize(Tokens(line)[1]) == Some(r.value.column)
    ensures r.Err? ==> (r.error == InvalidFormat <==> |Tokens(line)| != 2)
  {
    var v := Tokens(line);
    if |v| != 2 then Err(InvalidFormat)
    else match (ParseUsize(v[0]), ParseUsize(v[1]))
      case (Some(rows), Some(columns)) => Ok(Size(rows, columns))
      case _ => Err(InvalidNumber)
  }

  /** Every line holds exactly `columns` tokens. */
  predicate RowsFit(lines: seq<string>, columns: nat)
  {
    forall i :: 0 <= i < |lines| ==> |Tokens(lines[i])| == columns
  }

  /** The cells of grid lines that each hold exactly `columns` tokens. */
  function GridOf(rows: seq<string>, columns: nat): (g: seq<seq<Mark>>)
    requires RowsFit(rows, columns)
    ensures IsGrid(g, Size(|rows|, columns))
  {
    seq(|rows|, r requires 0 <= r < |rows| => RowOf(rows[r], columns))
  }

  /**
   * The grid a puzzle file describes, or why it is refused: the header comes
   * first, then the grid lines.
   */
  function Parse(lines: seq<string>): (r: Result<seq<seq<Mark>>, FileError>)
    ensures |lines| >= 1 && Header(lines[0]).Err? ==> r == Err(Header(lines[0]).error)
    ensures r.Ok? ==> |lines| >= 1 && Header(lines[0]).Ok? && IsGrid(r.value, Header(lines[0]).value)
  {
    if |lines| == 0 then Err(InvalidFormat)
    else match Header(lines[0])
      case Err(e) => Err(e)
      case Ok(size) => ParseGrid(lines[1..], size)
  }

  /**
   * The grid the lines after the header describe. A missing grid line, a grid
   * line with the wrong number of tokens and any line after the grid, even an
   * empty one, are all format errors.
   */
  function ParseGrid(rest: seq<string>, size: Size): (r: Result<seq<seq<Mark>>, FileError>)
    ensures r.Ok? <==> |rest| == size.row && RowsFit(rest, size.column)
    ensures r.Ok? ==> IsGrid(r.value, size)
    ensures r.Err? ==> r.error == InvalidFormat
  {
    if |rest| < size.row then Err(InvalidFormat)
    else
      var grid := rest[..size.row];
      if !RowsFit(grid, size.column) then Err(InvalidFormat)
      else if |rest| > size.row then Err(InvalidFormat)
      else Ok(GridOf(grid, size.column))
  }

  /**
   * The parsing block of `main`: reads the header, then the grid, returning
   * early on the first problem.
   */
  method ParsePuzzle(lines: seq<string>) returns (r: Result<seq<seq<Mark>>, FileError>)
    ensures r == Parse(lines)
  {
    if |lines| == 0 {
      return Err(InvalidFormat);
    }
    var v := Tokens(lines[0]);
    if |v| != 2 {
      return Err(InvalidFormat);
    }
    var rowSize := ParseUsize(v[0]);
    if rowSize.None? {
      return Err(InvalidNumber);
    }
    var columnSize := ParseUsize(v[1]);
    if columnSize.None? {
      return Err(InvalidNumber);
    }
    assert Header(lines[0]) == Ok(Size(rowSize.value, columnSize.value));
    r := ReadGrid(lines[1..], Size(rowSize.value, columnSize.value));
  }

  /**
   * The grid loop of `main`: starts from a grid of `No` cells, fills each row
   * from the next line's tokens, and then checks that no line is left.
   */
  method ReadGrid(rest: seq<string>, size: Size) returns (r: Result<seq<seq<Mark>>, FileError>)
    ensures r == ParseGrid(rest, size)
  {
    var rows, columns := size.row, size.column;
    var next := 0;
    var blank := seq(columns, _ => No);
    var problem := seq(rows, _ => blank);
    for row := 0 to rows
      invariant next == row <= |rest|
      invariant RowsFit(rest[..next], columns)
      invariant |problem| == rows
      invariant forall i :: 0 <= i < row ==> problem[i] == RowOf(rest[i], columns)
      invariant forall i :: row <= i < rows ==> problem[i] == blank
    {
      if next == |rest| {
        return Err(InvalidFormat);
      }
      var line := rest[next];
      next := next + 1;
      var tokens := Tokens(line);
      if |tokens| != columns {
        if |rest| >= rows {
          assert rest[..rows][row] == line;
        }
        return Err(InvalidFormat);
      }
      var cells := problem[row];
      for c := 0 to columns
        invariant |cells| == columns
        invariant forall k :: 0 <= k < c ==> cells[k] == MarkOfToken(tokens[k])
      {
        cells := cells[c := MarkOfToken(tokens[c])];
      }
      assert cells == RowOf(line, columns);
      problem := problem[row := cells];
      assert rest[..next] == rest[..next - 1] + [line];
    }
    if next < |rest| {
      return Err(InvalidFormat);
    }
    assert problem == GridOf(rest[..next], columns);
    r := Ok(problem);
  }

  /** A missing first line is a format error. */
  lemma ParseEmpty()
    ensures Parse([]) == Err(InvalidFormat)
  {
  }

  /**
   * A header without exactly two tokens is a format error; two tokens of which
   * one is not a size make the number error.
   */
  lemma ParseBadHeader(lines: seq<string>)
    requires |lines| >= 1
    ensures |Tokens(lines[0])| != 2 ==> Parse(lines) == Err(InvalidFormat)
    ensures (|Tokens(lines[0])| == 2 &&
             (ParseUsize(Tokens(lines[0])[0]).None? || ParseUsize(Tokens(lines[0])[1]).None?)) ==>
      Parse(lines) == Err(InvalidNumber)
  {
  }

  /**
   * A file is accepted exactly when its header gives a size, it has that many
   * grid lines after the header and no more, and every grid line holds that
   * many tokens.
   */
  lemma ParseAccepts(lines: seq<string>)
    ensures Parse(lines).Ok? <==>
      |lines| >= 1 && Header(lines[0]).Ok? &&
      |lines| == Header(lines[0]).value.row + 1 &&
      RowsFit(lines[1..], Header(lines[0]).value.column)
  {
    if |lines| >= 1 && Header(lines[0]).Ok? && |lines| == Header(lines[0]).value.row + 1 {
      assert lines[1..][..Header(lines[0]).value.row] == lines[1..];
    }
  }

  /**
   * An accepted file gives a grid of the size in its header, with `No` exactly
   * where the file has the token `0`.
   */
  lemma ParseContents(lines: seq<string>)
    requires Parse(lines).Ok?
    ensures |lines| >= 1 && Header(lines[0]).Ok?
    ensures var size := Header(lines[0]).value;
      IsGrid(Parse(lines).value, size) &&
      forall r, c :: 0 <= r < size.row && 0 <= c < size.column ==>
        |Tokens(lines[r + 1])| == size.column &&
        (Parse(lines).value[r][c] == No <==> Tokens(lines[r + 1])[c] == "0")
  {
    var size := Header(lines[0]).value;
    var grid := lines[1..][..size.row];
    forall i | 1 <= i <= size.row
      ensures |Tokens(lines[i])| == size.column
      ensures Parse(lines).value[i - 1] == RowOf(lines[i], size.column)
    {
      assert grid[i - 1] == lines[i];
    }
  }

  /** The token a cell is written as. */
  function TokenOf(m: Mark): string
  {
    if m == Yes then "1" else "0"
  }

  /** A grid written out as a puzzle file: its size, then one line per row. */
  function Render(g: seq<seq<Mark>>, columns: nat): seq<string>
    requires IsGrid(g, Size(|g|, columns))
  {
    [Join([ShowNat(|g|), ShowNat(columns)])] +
    seq(|g|, r requires 0 <= r < |g| => Join(seq(columns, c requires 0 <= c < columns => TokenOf(g[r][c]))))
  }

  /** The header of a rendered grid reads back as its size. */
  lemma HeaderOfRender(g: seq<seq<Mark>>, columns: nat)
    requires IsGrid(g, Size(|g|, columns))
    requires |g| <= MaxUsize && columns <= MaxUsize
    ensures Header(Render(g, columns)[0]) == Ok(Size(|g|, columns))
  {
    var header := [ShowNat(|g|), ShowNat(columns)];
    TokensOfJoin(header);
    ParseShowNat(|g|);
    ParseShowNat(columns);
  }

  /** Each rendered grid line reads back as the tokens of its row. */
  lemma TokensOfRenderedRow(g: seq<seq<Mark>>, columns: nat, r: nat)
    requires IsGrid(g, Size(|g|, columns)) && r < |g|
    ensures |Tokens(Render(g, columns)[r + 1])| == columns
    ensures forall c :: 0 <= c < columns ==> Tokens(Render(g, columns)[r + 1])[c] == TokenOf(g[r][c])
  {
    var ws := seq(columns, c requires 0 <= c < columns => TokenOf(g[r][c]));
    assert Render(g, columns)[r + 1] == Join(ws);
    TokensOfJoin(ws);
  }

  /** Writing a grid out and reading it back gives the grid. */
  lemma ParseRender(g: seq<seq<Mark>>, columns: nat)
    requires IsGrid(g, Size(|g|, columns))
    requires |g| <= MaxUsize && columns <= MaxUsize
    ensures Parse(Render(g, columns)) == Ok(g)
  {
    var lines := Render(g, columns);
    HeaderOfRender(g, columns);
    forall i | 0 <= i < |lines[1..]|
      ensures |Tokens(lines[1..][i])| == columns
    {
      TokensOfRenderedRow(g, columns, i);
    }
    ParseAccepts(lines);
    ParseContents(lines);
    var h := Parse(lines).value;
    assert |h| == |g|;
    forall r | 0 <= r < |g|
      ensures h[r] == g[r]
    {
      TokensOfRenderedRow(g, columns, r);
      forall c | 0 <= c < columns
        ensures h[r][c] == g[r][c]
      {
        assert h[r][c] == No <==> TokenOf(g[r][c]) == "0";
      }
    }
    assert h == g;
  }
}

=== FILE: runs.dfy ===
/**
 * Reference definitions the hint computations are proved against: the maximal
 * runs of `Yes` cells of a line read from first to last cell, cell counts,
 * sums and rotations of hint lists.
 */
module Runs {
  import opened Marks

  /** The line without its last cell. */
  function Init<T>(s: seq<T>): seq<T>
    requires s != []
  {
    s[..|s| - 1]
  }

  /** Number of `Yes` cells in a line. */
  function CountYes(line: seq<Mark>): (n: nat)
    ensures n <= |line|
  {
    if line == [] then 0
    else CountYes(Init(line)) + (if line[|line| - 1] == Yes then 1 else 0)
  }

  /** A line has no `Yes` cell exactly when its count is zero. */
  lemma {:induction false} CountYesZero(line: seq<Mark>)
    ensures CountYes(line) == 0 <==> Yes !in line
    decreases |line|
  {
    if line != [] {
      assert line == Init(line) + [line[|line| - 1]];
      CountYesZero(Init(line));
    }
  }

  /** Sum of the entries of a hint list. */
  function Sum(s: seq<nat>): nat
  {
    if s == [] then 0 else Sum(Init(s)) + s[|s| - 1]
  }

  lemma {:induction false} SumSnoc(s: seq<nat>, x: nat)
    ensures Sum(s + [x]) == Sum(s) + x
  {
    assert Init(s + [x]) == s;
  }

  lemma {:induction false} SumCons(x: nat, s: seq<nat>)
    ensures Sum([x] + s) == x + Sum(s)
  {
    SumAppend([x], s);
    assert Init([x]) == [];
  }

  lemma {:induction false} SumAppend(a: seq<nat>, b: seq<nat>)
    ensures Sum(a + b) == Sum(a) + Sum(b)
    decreases |b|
  {
    if b == [] {
      assert a + b == a;
    } else {
      assert Init(a + b) == a + Init(b);
      SumAppend(a, Init(b));
    }
  }

  lemma {:induction false} CountYesAppend(a: seq<Mark>, b: seq<Mark>)
    ensures CountYes(a + b) == CountYes(a) + CountYes(b)
    decreases |b|
  {
    if b == [] {
      assert a + b == a;
    } else {
      assert Init(a + b) == a + Init(b);
      CountYesAppend(a, Init(b));
    }
  }

  /**
   * The state of a scan of a line from its first cell to its last: the runs
   * of `Yes` cells a `No` cell has already ended, and the length of the run
   * still open (zero when the last cell read is `No`).
   */
  datatype Scan = Scan(closed: seq<nat>, open: nat)

  /** The state before any cell is read. */
  const Start: Scan := Scan([], 0)

  /**
   * Reads one cell: a `Yes` extends the open run, a `No` ends it. A run is
   * open afterwards exactly when the cell is `Yes`.
   */
  function Step(st: Scan, m: Mark): (r: Scan)
    ensures r.open > 0 <==> m == Yes
  {
    if m == Yes then Scan(st.closed, st.open + 1)
    else if st.open != 0 then Scan(st.closed + [st.open], 0)
    else Scan(st.closed, 0)
  }

  /**
   * Reads a whole line, cell by cell, from the state `st`. A run is open at
   * the end exactly when the last cell is `Yes`.
   */
  function ScanFrom(st: Scan, line: seq<Mark>): (r: Scan)
    ensures line != [] ==> (r.open > 0 <==> line[|line| - 1] == Yes)
    decreases |line|
  {
    if line == [] then st else Step(ScanFrom(st, Init(line)), line[|line| - 1])
  }

  /** The runs a finished scan has found: the closed ones and the open one if any. */
  function Close(st: Scan): seq<nat>
  {
    if st.open == 0 then st.closed else st.closed + [st.open]
  }

  /**
   * The lengths of the maximal runs of `Yes` cells of a line, read from its
   * first cell to its last without wrapping around: the clue of an ordinary
   * nonogram. A line has at most as many runs as cells.
   */
  function LinearRuns(line: seq<Mark>): (runs: seq<nat>)
    ensures |runs| <= |line|
  {
    ScanCount(Start, line);
    Close(ScanFrom(Start, line))
  }

  /** Each cell read adds at most one run to those a scan has found. */
  lemma {:induction false} ScanCount(st: Scan, line: seq<Mark>)
    ensures |Close(ScanFrom(st, line))| <= |Close(st)| + |line|
    decreases |line|
  {
    if line != [] {
      ScanCount(st, Init(line));
    }
  }

  /** Length of the run of `Yes` cells that ends the line. */
  function TrailingYes(line: seq<Mark>): nat
  {
    ScanFrom(Start, line).open
  }

  /** Reading `x + y` is reading `x`, then `y`. */
  lemma {:induction false} ScanAppend(st: Scan, x: seq<Mark>, y: seq<Mark>)
    ensures ScanFrom(st, x + y) == ScanFrom(ScanFrom(st, x), y)
    decreases |y|
  {
    if y == [] {
      assert x + y == x;
    } else {
      assert Init(x + y) == x + Init(y);
      ScanAppend(st, x, Init(y));
    }
  }

  /** Runs closed before a scan stay in front of everything it closes. */
  lemma {:induction false} ScanKeepsClosed(c: seq<nat>, d: seq<nat>, open: nat, line: seq<Mark>)
    ensures var st := ScanFrom(Scan(d, open), line);
      ScanFrom(Scan(c + d, open), line) == Scan(c + st.closed, st.open)
    decreases |line|
  {
    if line != [] {
      ScanKeepsClosed(c, d, open, Init(line));
      var st := ScanFrom(Scan(d, open), Init(line));
      assert (c + st.closed) + [st.open] == c + (st.closed + [st.open]);
    }
  }

  /** A scan that starts with no open run finds the runs of the line after the ones it had. */
  lemma {:induction false} ScanAfterClosed(c: seq<nat>, line: seq<Mark>)
    ensures ScanFrom(Scan(c, 0), line) == Scan(c + ScanFrom(Start, line).closed, TrailingYes(line))
  {
    ScanKeepsClosed(c, [], 0, line);
    assert c + [] == c;
  }

  /** The open run is non-empty exactly when the line ends with `Yes`. */
  lemma {:induction false} OpenAtEnd(st: Scan, line: seq<Mark>)
    requires line != []
    ensures ScanFrom(st, line).open > 0 <==> line[|line| - 1] == Yes
  {
  }

  /** The trailing run: its cells are `Yes` and the cell before it, if any, is `No`. */
  lemma {:induction false} TrailingYesCells(line: seq<Mark>)
    ensures TrailingYes(line) <= |line|
    ensures forall i :: |line| - TrailingYes(line) <= i < |line| ==> line[i] == Yes
    ensures TrailingYes(line) < |line| ==> line[|line| - 1 - TrailingYes(line)] == No
    decreases |line|
  {
    if line != [] {
      var init := Init(line);
      TrailingYesCells(init);
      if line[|line| - 1] == Yes {
        var t := TrailingYes(init);
        assert TrailingYes(line) == t + 1;
        forall i | |line| - (t + 1) <= i < |line|
          ensures line[i] == Yes
        {
          if i < |line| - 1 { assert line[i] == init[i]; }
        }
        if t + 1 < |line| {
          assert line[|line| - 1 - (t + 1)] == init[|init| - 1 - t];
        }
      }
    }
  }

  /** Every closed run has at least one cell. */
  lemma {:induction false} ClosedPositive(line: seq<Mark>)
    ensures forall i :: 0 <= i < |ScanFrom(Start, line).closed| ==> ScanFrom(Start, line).closed[i] >= 1
    decreases |line|
  {
    if line != [] {
      ClosedPositive(Init(line));
    }
  }

  /** Every run has at least one cell. */
  lemma {:induction false} LinearRunsPositive(line: seq<Mark>)
    ensures forall i :: 0 <= i < |LinearRuns(line)| ==> LinearRuns(line)[i] >= 1
  {
    ClosedPositive(line);
  }

  /** A scan counts every `Yes` cell once, in a closed run or in the open one. */
  lemma {:induction false} ScanSum(line: seq<Mark>)
    ensures Sum(ScanFrom(Start, line).closed) + TrailingYes(line) == CountYes(line)
    decreases |line|
  {
    if line != [] {
      ScanSum(Init(line));
      var st := ScanFrom(Start, Init(line));
      if line[|line| - 1] == No && st.open != 0 {
        SumSnoc(st.closed, st.open);
      }
    }
  }

  /** The runs of a line add up to its number of `Yes` cells. */
  lemma {:induction false} LinearRunsSum(line: seq<Mark>)
    ensures Sum(LinearRuns(line)) == CountYes(line)
  {
    ScanSum(line);
    var st := ScanFrom(Start, line);
    if st.open != 0 {
      SumSnoc(st.closed, st.open);
    }
  }

  /** A line has no run exactly when it has no `Yes` cell. */
  lemma {:induction false} LinearRunsEmpty(line: seq<Mark>)
    ensures LinearRuns(line) == [] <==> Yes !in line
  {
    var runs := LinearRuns(line);
    LinearRunsSum(line);
    LinearRunsPositive(line);
    CountYesZero(line);
    if runs != [] {
      assert Sum(runs) == Sum(Init(runs)) + runs[|runs| - 1];
    }
  }

  /** A line of `Yes` cells leaves one open run as long as the line. */
  lemma {:induction false} ScanAllYes(line: seq<Mark>)
    requires forall i :: 0 <= i < |line| ==> line[i] == Yes
    ensures ScanFrom(Start, line) == Scan([], |line|)
    decreases |line|
  {
    if line != [] {
      ScanAllYes(Init(line));
    }
  }

  /** A non-empty line of `Yes` cells is one run. */
  lemma {:induction false} LinearRunsAllYes(line: seq<Mark>)
    requires line != []
    requires forall i :: 0 <= i < |line| ==> line[i] == Yes
    ensures LinearRuns(line) == [|line|]
  {
    ScanAllYes(line);
  }

  /**
   * Cutting a line where a `No` cell meets the cut splits its runs in two:
   * the runs of `x + y` are those of `x` followed by those of `y`.
   */
  lemma {:induction false} LinearRunsAppend(x: seq<Mark>, y: seq<Mark>)
    requires x == [] || y == [] || x[|x| - 1] == No || y[0] == No
    ensures LinearRuns(x + y) == LinearRuns(x) + LinearRuns(y)
  {
    var sx := ScanFrom(Start, x);
    ScanAppend(Start, x, y);
    if y == [] {
      assert x + y == x;
    } else if sx.open == 0 {
      ScanAfterClosed(sx.closed, y);
    } else {
      OpenAtEnd(Start, x);
      var y' := y[1..];
      assert y == [No] + y';
      assert Init([No]) == [];
      ScanAppend(sx, [No], y');
      ScanAppend(Start, [No], y');
      ScanAfterClosed(sx.closed + [sx.open], y');
    }
  }

  /** Length of the run of `Yes` cells that starts the line. */
  function LeadingYes(line: seq<Mark>): (a: nat)
    ensures a <= |line|
  {
    if line == [] || line[0] == No then 0
    else 1 + LeadingYes(line[1..])
  }

  /** The leading run: its cells are `Yes` and the cell after it, if any, is `No`. */
  lemma {:induction false} LeadingYesCells(line: seq<Mark>)
    ensures forall i :: 0 <= i < LeadingYes(line) ==> line[i] == Yes
    ensures LeadingYes(line) < |line| ==> line[LeadingYes(line)] == No
    decreases |line|
  {
    if line != [] && line[0] == Yes {
      var rest := line[1..];
      LeadingYesCells(rest);
      forall i | 0 <= i < LeadingYes(line)
        ensures line[i] == Yes
      {
        if i > 0 { assert line[i] == rest[i - 1]; }
      }
      if LeadingYes(line) < |line| {
        assert line[LeadingYes(line)] == rest[LeadingYes(rest)];
      }
    }
  }

  /** Rotates a list left by `k` places, as `rotate_left` does in place. */
  function RotateLeft<T>(s: seq<T>, k: nat): (r: seq<T>)
    requires k <= |s|
    ensures |r| == |s|
  {
    s[k..] + s[..k]
  }

  /**
   * Entry `i` of a list rotated left by `k` is entry `i + k` of the list,
   * counted around from the front once it runs past the end.
   */
  lemma {:induction false} RotateLeftAt<T>(s: seq<T>, k: nat)
    requires k <= |s|
    ensures forall i :: 0 <= i < |s| - k ==> RotateLeft(s, k)[i] == s[i + k]
    ensures forall i :: |s| - k <= i < |s| ==> RotateLeft(s, k)[i] == s[i + k - |s|]
  {
    var r := RotateLeft(s, k);
    forall i | |s| - k <= i < |s|
      ensures r[i] == s[i + k - |s|]
    {
      assert r[i] == s[..k][i - (|s| - k)];
    }
  }

  /** Rotating a list only reorders its entries. */
  lemma {:induction false} RotateLeftPermutes<T>(s: seq<T>, k: nat)
    requires k <= |s|
    ensures multiset(RotateLeft(s, k)) == multiset(s)
  {
    assert s == s[..k] + s[k..];
  }

  /** `a` is `b` read from some starting position and wrapping around. */
  ghost predicate IsRotationOf<T>(a: seq<T>, b: seq<T>)
  {
    exists k :: 0 <= k <= |b| && a == RotateLeft(b, k)
  }

  /** Two rotations in a row are one rotation. */
  lemma {:induction false} RotateLeftTwice<T>(s: seq<T>, i: nat, j: nat)
    requires i <= |s| && j <= |s|
    ensures IsRotationOf(RotateLeft(RotateLeft(s, i), j), s)
  {
    if j <= |s| - i {
      RotateLeftTwiceShort(s, i, j);
    } else {
      RotateLeftTwiceLong(s, i, j);
    }
  }

  lemma {:induction false} RotateLeftTwiceShort<T>(s: seq<T>, i: nat, j: nat)
    requires i + j <= |s|
    ensures RotateLeft(RotateLeft(s, i), j) == RotateLeft(s, i + j)
  {
    var u := RotateLeft(s, i);
    assert u[j..] == s[i + j..] + s[..i];
    assert u[..j] == s[i..i + j];
    assert s[..i + j] == s[..i] + s[i..i + j];
  }

  lemma {:induction false} RotateLeftTwiceLong<T>(s: seq<T>, i: nat, j: nat)
    requires i <= |s| && j <= |s| && |s| < i + j
    ensures RotateLeft(RotateLeft(s, i), j) == RotateLeft(s, i + j - |s|)
  {
    var m := i + j - |s|;
    var a, b, c := s[..m], s[m..i], s[i..];
    assert s[..i] == a + b;
    var u := c + (a + b);
    assert RotateLeft(s, i) == u;
    assert u[j..] == b;
    assert u[..j] == c + a;
    assert s[m..] == b + c;
  }

  /** Rotating keeps the sum of a hint list. */
  lemma {:induction false} RotateLeftSum(s: seq<nat>, k: nat)
    requires k <= |s|
    ensures Sum(RotateLeft(s, k)) == Sum(s)
  {
    var a, b := s[..k], s[k..];
    assert RotateLeft(s, k) == b + a;
    assert a + b == s;
    SumAppend(b, a);
    SumAppend(a, b);
  }

  /** Rotating keeps every entry of a list, so it keeps "every entry is at least one". */
  lemma {:induction false} RotateLeftPositive(s: seq<nat>, k: nat)
    requires k <= |s|
    requires forall i :: 0 <= i < |s| ==> s[i] >= 1
    ensures forall i :: 0 <= i < |s| ==> RotateLeft(s, k)[i] >= 1
  {
    var r := RotateLeft(s, k);
    RotateLeftPermutes(s, k);
    forall i | 0 <= i < |s|
      ensures r[i] >= 1
    {
      assert r[i] in multiset(s);
    }
  }
}
